=== FILE: README.md ===
# Chat-history store of truthspotter-dash, in Dafny

This project models the chat-history part of truthspotter-dash, a claim-verification dashboard.

The centre of it is the store behind `ChatService` (backend/models/chat.servic.ts). It holds chat sessions and their messages. The store is a record of a session map, a message sequence in insertion order, and a monotone clock that stands for `NOW()`. Every service operation is a pure function or method from the store to a new store and a result.

The model follows the constraints of the Postgres schema in backend/utils/database.ts:

- the title is `VARCHAR(255) NOT NULL DEFAULT 'New Chat'`; like every `VARCHAR(n)` column it refuses a longer value unless everything past the bound is spaces, which are clipped (`Database.Fit`);
- the role is `VARCHAR(20)` with `CHECK (role IN ('user','assistant'))`;
- no text column takes a value holding the NUL character U+0000, which Postgres refuses as untranslatable (`Database.Storable`);
- `ON DELETE CASCADE` runs from messages to their session;
- an `AFTER INSERT` trigger sets the owning session's `updated_at` to `NOW()`.

`Database.Valid` states these constraints as one store invariant:

- primary keys;
- no orphan messages;
- messages in creation order;
- distinct message ids;
- the trigger invariant: `updated_at` is the time of the session's last message, or its creation time when it has none.

Every operation preserves `Valid`.

Around the store the project models four more parts:

- **Express controller** (`ChatController`): its guards, its defaults and the status codes it sends.
- **Next.js chat path** (`NextChat.HandleChatRequest`): it opens a session when none is named, stores the user's message, then stores an echo reply. Nothing is rolled back.
- **Middlewares**: the two guards in front of the Next.js route, which check the request body and the bearer token.
- **Front end**: the pure logic of the dashboard. This covers the chat-list state machine, the relative-time and status labels, and the history panel.

Modules follow the program's structure:

- `Results`
- `Text`: JavaScript `trim` and decimal rendering
- `ChatTypes`
- `Database`
- `Ranking`: recency ordering and the latest message
- `ChatService`
- `ChatController`
- `Middlewares`
- `NextChat`
- `Display`
- `Dashboard`
- `History`

What the model takes as parameters:

- **Generated keys** (`gen_random_uuid()`) are an explicit `uuid` argument of every insert. A key already in use is a primary-key violation.
- **Round-trip outcome.** Every datastore round trip takes an `up` flag. When it is false, the store reported an error. An id that is not a UUID at all is such an error: Postgres rejects it before looking at any row. Ids are otherwise compared as exact strings, in the canonical lower-case spelling that `gen_random_uuid()` produces. This makes the service's fail-soft answers reachable: `null`, `[]`, `false` and zeroed statistics.
- **Clock.** Time passes only through `Database.Elapse`.
- **Front-end inputs.** The `Date.now()` readings (two per action that appends two entries, since each entry reads the clock on its own), the auto-generated session title and the dashboard's random verification result are inputs.

## Model

| member | source | states |
|---|---|---|
| ChatTypes.ParseRole | backend/models/chat.types.ts:8-14 | a stored role reads back only from "user" or "assistant", and reading is the inverse of writing |
| ChatTypes.Extend | backend/models/chat.types.ts:30-32 | a session with messages carries every session field unchanged plus the given list |
| ChatTypes.Summarise | backend/models/chat.types.ts:34-37 | a summary carries every session field unchanged, and its latest message may be absent |
| Database.Empty | backend/utils/database.ts:13-39 | an empty store satisfies every schema constraint and the trigger invariant |
| Database.Fit | backend/utils/database.ts:16 | a VARCHAR(n) column stores a value exactly when it has at most n characters or only spaces past the n-th; what is stored is the value cut to min(length, n) characters |
| Database.FitStable | backend/utils/database.ts:16 | a value that fits is stored unchanged, and a stored value stores as itself again |
| Database.FitPadding | backend/utils/database.ts:16 | a fitting value followed by any number of spaces is stored, starting with the value |
| Database.Valid | backend/utils/database.ts:13-39 | the schema as one invariant: primary keys, titles within 255 characters, no orphan messages, rows in creation order with distinct keys, and each session's updated_at equal to its last message's time (its creation time without messages) |
| Database.StorableConcat | backend/utils/database.ts:16-37 | a joined text is storable exactly when both parts are, so no NUL character enters by concatenation |
| Database.InsertSession | backend/utils/database.ts:13-19 | inserting a session succeeds exactly when the store is up, the title (default 'New Chat') holds no NUL and is storable in 255 characters and the key is fresh; the row carries the title as stored, is stamped now, and nothing else changes; validity is preserved |
| Database.InsertMessage | backend/utils/database.ts:32-39 | inserting a message succeeds exactly when the store is up, neither role nor content holds a NUL, the role has at most 20 characters and is user/assistant (a space-padded longer role is clipped and then fails the CHECK), the key is fresh and the session exists; empty content is accepted; failure changes nothing |
| Database.InsertMessageValid | backend/utils/database.ts:87-117 | after the AFTER INSERT trigger the owning session's updated_at equals the insertion time and the store stays valid |
| Database.DeleteSessions | backend/utils/database.ts:35 | deleting sessions removes exactly them and, by cascade, exactly their messages; surviving sessions are unchanged and the store stays valid |
| Database.UpdateTitle | backend/models/chat.servic.ts:185-192 | renaming succeeds exactly when the store is up, the title holds no NUL and fits 255 characters (spaces past them clipped) and the row exists; the row comes back with only its title changed, updated_at kept since no trigger fires on updates; failure changes nothing; validity is preserved |
| Database.SelectSession | backend/models/chat.servic.ts:94-98 | the lookup with `.single()` succeeds exactly when the store is up and the row exists, and returns that row |
| Database.SelectMessages | backend/models/chat.servic.ts:69-75 | the query succeeds exactly when the store is up and yields exactly the session's messages, in creation order with distinct keys under a valid store (rows stamped alike in insertion order); zero rows is a success |
| Database.OwnedByAppend | backend/models/chat.servic.ts:72-76 | appending a message extends exactly its owner's conversation |
| Database.GetStats | backend/utils/database.ts:181-229 | totals equal the number of sessions and messages; oldest/newest are the least and greatest creation times, absent exactly when there are no sessions, oldest <= newest; any fetch error gives 0/0/none/none |
| Ranking.SelectRecent | backend/models/chat.servic.ts:233-237 | the ids taken are min(limit, total) distinct sessions in non-increasing updated_at order, and no session left out was updated later than one taken |
| Ranking.Latest | backend/models/chat.servic.ts:164-165 | the latest message is absent exactly for an empty list, belongs to the list and has the greatest created_at |
| Ranking.RankingCoversAll | backend/models/chat.servic.ts:122-125 | a ranking as long as the session table names every session |
| ChatService.CreateSession | backend/models/chat.servic.ts:17-37 | succeeds exactly when the store is up, the key is fresh and the title holds no NUL and fits 255 characters; a fresh id is stored with the given title when non-empty (with spaces past 255 characters clipped), else "New Chat", stamped now; other sessions and all messages unchanged; None changes nothing |
| ChatService.AddMessage | backend/models/chat.servic.ts:42-64 | on an existing session, with an accepted role and content holding no NUL, exactly one message with the given fields is appended and the session's updated_at moves to now, never backwards; otherwise None and the store is unchanged |
| ChatService.GetSessionMessages | backend/models/chat.servic.ts:69-87 | exactly the session's messages, in creation order, with distinct ids; [] (never null) on error |
| ChatService.AppendThenRead | backend/models/chat.servic.ts:42-87 | reading a session right after an append gives the earlier conversation followed by the new message, also when earlier messages carry the same stamp (insertion-order tie-break) |
| ChatService.NoMessagesYet | backend/models/chat.servic.ts:69-87 | a session that owns no message reads back as an empty conversation |
| ChatService.TwoTurnConversation | backend/models/chat.servic.ts:17-87 | an untitled session followed by a user turn and an assistant turn, with any NUL-free question and answer, is called "New Chat", reads back as exactly the user turn followed by the reply, and has its updated_at moved forward |
| ChatService.GetSessionWithMessages | backend/models/chat.servic.ts:92-115 | None exactly when the session lookup fails; otherwise the session's fields plus exactly getSessionMessages |
| ChatService.GetAllSessions | backend/models/chat.servic.ts:120-137 | every session exactly once, most recently updated first; [] on error |
| ChatService.GetRecentSessions | backend/models/chat.servic.ts:142-180 | min(limit, total) distinct sessions, newest first, none left out newer than one listed; each with its own fields, message_count equal to the number of messages it owns, and latest_message of greatest created_at, absent exactly when it owns none |
| ChatService.UpdateSession | backend/models/chat.servic.ts:185-204 | only the matched session's title changes, to the given title with spaces past 255 characters clipped, with created_at, updated_at and messages untouched; None, changing nothing, exactly when no row matches, the title holds a NUL or does not fit 255 characters, or the store fails |
| ChatService.DeleteSession | backend/models/chat.servic.ts:209-226 | the session and all its messages go; the answer is true whenever the store answers |
| ChatService.DeleteMissingSession | backend/models/chat.servic.ts:209-221 | deleting an id in canonical form that names no session answers true and changes nothing |
| ChatService.ClearOldSessions | backend/models/chat.servic.ts:231-260 | false and nothing deleted with no sessions, keep = 0 or an error; otherwise exactly min(keep, total) sessions survive unchanged, none removed was newer than a survivor, and no message of a removed session remains |
| ChatService.RetentionKeepsCaptured | backend/models/chat.servic.ts:243-248 | the id set captured by the ranking has the ranking's size and outranks every session outside it |
| ChatController.CreateSessionHandler | backend/controllers/chat.controller.ts:16-41 | 201 exactly when the store is up, the key is fresh and the title holds no NUL and fits 255 characters; the new session is stored titled as the column stores the title and stamped now, with other sessions and all messages unchanged; else 400 "Failed to create session" with nothing stored |
| ChatController.PaddedTitleCreated | backend/controllers/chat.controller.ts:16-41 | a title longer than 255 characters only by trailing spaces gets 201, and the stored title starts with the unpadded title |
| ChatController.AddMessageHandler | backend/controllers/chat.controller.ts:47-82 | 400 with the store untouched when session_id, role or content is missing or empty; 201 exactly when the store is up, the role is user/assistant, the content holds no NUL, the key is fresh and the session exists, and then exactly that message is appended, stamped now, and only the session's updated_at moves to now; 400 "Failed to add message" otherwise |
| ChatController.EmptyContentOnlyGuardedHere | backend/controllers/chat.controller.ts:52-58 | the store accepts empty content while the handler refuses it |
| ChatController.GetSessionMessagesHandler | backend/controllers/chat.controller.ts:88-104 | always a success, carrying the session's messages |
| ChatController.GetSessionHandler | backend/controllers/chat.controller.ts:110-134 | 404 "Session not found" exactly when the lookup fails, else 200 with the session and exactly getSessionMessages: the session's messages in creation order, [] on a message-fetch error |
| ChatController.GetAllSessionsHandler | backend/controllers/chat.controller.ts:140-156 | always a success, the limit defaulting to 10; [] on a store error; otherwise min(limit, total) distinct stored sessions, newest first, none left out newer than one listed, each with its own fields, its message count and its latest message |
| ChatController.UpdateSessionHandler | backend/controllers/chat.controller.ts:162-197 | 400 "Title is required" with the store untouched exactly when the title is missing or empty; 200 exactly when the session exists, the store is up and the title holds no NUL and fits 255 characters, returning the stored session with only the title changed (spaces past 255 characters clipped) and storing it, messages untouched; 404 otherwise |
| ChatController.DeleteSessionHandler | backend/controllers/chat.controller.ts:203-227 | 200 exactly when the store answers, with exactly the session and its messages gone, every other session and message kept and the clock unchanged; 404 only on a store error |
| ChatController.DeleteMissingIsNotNotFound | backend/controllers/chat.controller.ts:208-214 | deleting an id in canonical form that names no session answers 200, never the 404 "not found" |
| ChatController.ClearOldSessionsHandler | backend/controllers/chat.controller.ts:233-257 | keep defaults to 50; 200 with "keeping N recent sessions" exactly when the store answers both times, keep > 0 and there are sessions; then min(keep, total) sessions survive unchanged, none removed was newer than a survivor, exactly the removed sessions' messages go and the clock is unchanged; 400 with the store untouched otherwise |
| ChatController.ClearedMessageNamesCount | backend/controllers/chat.controller.ts:248 | the cleanup message determines the kept count: equal messages exactly for equal counts |
| Middlewares.ValidateChatInput | src/app/api/middlewares/validation.ts:3-11 | "Invalid request body" exactly for a body that is not an array or object; passes exactly when `message` is a string that is not all whitespace; any other body gets "Field 'message' is required" |
| Middlewares.OnlyMessageInspected | src/app/api/middlewares/validation.ts:7-10 | changing any field other than message, session_id included, never changes the verdict |
| Middlewares.PaddingIrrelevant | src/app/api/middlewares/validation.ts:8 | whitespace around a message never changes the verdict |
| Middlewares.ApplySecurity | src/app/api/middlewares/security.ts:3-13 | with no key (absent or empty) every request passes; with a key a request passes exactly when its header is "Bearer " + key; a missing header is rejected; rejection says "Unauthorized" |
| NextChat.OpenSession | src/app/api/models/chat.service.ts:10-28 | a named session is used as is with no insert; otherwise exactly one new session under the generated id, titled as the column stores the auto-title, or an error with nothing stored (also when the auto-title holds a NUL) |
| NextChat.HandleChatRequest | src/app/api/models/chat.service.ts:9-71 | succeeds exactly when every step can, the message and, for a new session, the auto-title holding no NUL; then a user message with the input and an assistant message "Echo: " + input are appended in that order, the reply is that echo, saved is true, id is the reply's key and session_id names the session (a given session kept, a new one titled and stamped now); the store stays valid |
| NextChat.ConversationGainsTwoTurns | src/app/api/models/chat.service.ts:30-58 | the session's conversation gains exactly the two messages, and a newly opened session held none before |
| NextChat.Converse | src/app/api/models/chat.service.ts:30-63 | the two inserts succeed exactly when both keys are fresh and distinct, the session exists, the message holds no NUL and the store answers both times; a failed user insert changes nothing, a failed echo leaves the user's message stored |
| NextChat.NoRollback | src/app/api/models/chat.service.ts:13-63 | a failed request keeps what the steps before the failing one wrote: nothing when opening the session fails, the new session when the user's message fails, the session and the user's message when the echo fails |
| NextChat.EchoFailureKeepsSession | src/app/api/models/chat.service.ts:13-63 | a request without a session whose echo insert fails leaves the opened session and the user's message stored |
| Display.StatusLabel | src/components/Dashboard.tsx:553-580 | verified-true, verified-false and unverified read True, False and Unverified, each exactly; every other status reads Processing |
| Display.FormatTime | src/components/Dashboard.tsx:582-595 | "Just now" exactly when less than an hour has passed, future dates included; whole days once a day has passed; whole hours otherwise |
| Display.DaysFromMs | src/components/Dashboard.tsx:585-586 | flooring to hours and then to days is flooring to days |
| Display.DaysLabel | src/components/Dashboard.tsx:588-589 | a date between d and d+1 days ago, d >= 1, reads "{d}d ago" |
| Display.HoursLabel | src/components/Dashboard.tsx:590-591 | a date between h and h+1 hours ago, 1 <= h <= 23, reads "{h}h ago" |
| Display.CountLabel | src/components/History.tsx:88 | "1 claim verified" for one and "{n} claims verified" otherwise |
| Display.CountLabelInjective | src/components/History.tsx:88 | different counts give different labels |
| Dashboard.StartSearch | src/components/Dashboard.tsx:597-616 | a blank query or a busy page changes nothing; otherwise the claim, stamped with the first clock reading, and a loading placeholder, stamped one past the second, are appended and the page turns busy; the two ids differ exactly when the second reading is not one behind the first; consistency is kept |
| Dashboard.Resolve | src/components/Dashboard.tsx:655-661 | every loading entry becomes a settled entry carrying the result; the rest are untouched and the length is kept |
| Dashboard.CompleteSearch | src/components/Dashboard.tsx:654-662 | the page ends idle with no loading entry, the same ids and contents, and the result on exactly the former placeholders |
| Dashboard.SelectHistoryResult | src/components/Dashboard.tsx:665-680 | the past claim, stamped with the first clock reading, and a settled answer carrying the result, stamped one past the second, are appended; the two ids differ exactly when the second reading is not one behind the first; the busy flag is unchanged |
| Dashboard.Submit | src/components/Dashboard.tsx:682-688 | only a non-blank input starts a search, and the recorded claim is the trimmed input, itself non-blank |
| Dashboard.SearchRoundTrip | src/components/Dashboard.tsx:597-663 | a search on an idle page, run to completion, appends the claim and its answer and changes nothing else |
| History.RenderItem | src/components/History.tsx:94-123 | an item shows its verification's id, claim, status label and relative time, and is highlighted exactly when its id is selected |
| History.Render | src/components/History.tsx:59-97 | the empty state exactly for an empty history; otherwise the count label and one item per verification, in order |
| History.AtMostOneSelected | src/components/History.tsx:97 | with distinct ids at most one item is highlighted, and none without a selection |
| History.RecentReadsJustNow | src/components/History.tsx:44-57 | a verification less than an hour old, or dated in the future, reads "Just now" |
| Text.Trim | src/app/api/middlewares/validation.ts:8 | the trimmed string sits between two whitespace-only pieces of the input, is empty exactly for a blank input, and neither starts nor ends with whitespace |
| Text.TrimIdempotent | src/components/Dashboard.tsx:682-688 | trimming a trimmed string changes nothing |
| Text.Show | backend/controllers/chat.controller.ts:248 | `${n}` of a whole number is a non-empty string of decimal digits with no leading zero |
| Text.ValueOfShow | backend/controllers/chat.controller.ts:248 | the decimal rendering of a number reads back as that number |

## Left out

- **Supabase client.** The client, the query builder, the `rpc('exec')` DDL calls, `initializeTables`, `createIndexes`, `validateDatabase` and `setupRLS` are out, because they are foreign library calls and I/O. Only the constraints and the trigger they install are modelled.
- **clearOldSessions race.** The read-then-delete in `clearOldSessions` runs as two separate round trips, concurrently with other writers. It is modelled as one sequential step that reuses the captured ids.
- **Ties between equal timestamps.** Ties in the session ranking, in `latest_message` and in which of several equally recent sessions survive a cleanup are left open, as the code leaves them to unspecified sort and store order. `Ranking.Latest` picks one, and the contracts of `Ranking`, `ChatService.GetAllSessions`, `ChatService.GetRecentSessions` and `ChatService.ClearOldSessions` hold for any choice. The projected field subset of the joined `latest_message` is not modelled: the whole message is returned.
- Database.SelectMessages: messages of one session with equal `created_at` are read back in insertion order. Postgres's `ORDER BY created_at` promises no order between them; in practice each insert runs in its own transaction and gets its own, later `now()`, so equal stamps do not arise.
- ChatService.AppendThenRead: relies on that insertion-order tie-break, because the appended message is stamped with the current clock reading, which earlier messages may share. The same holds for `ChatService.Turn`; `ChatService.TwoTurnConversation` advances the clock before each turn and needs no tie-break.
- **Time.** Timestamps are whole numbers on a monotone clock rather than ISO strings, and `NOW()` is the store's clock field. The three inserts of `NextChat.HandleChatRequest` read the same clock.
- **Auto-title.** The `Chat ${new Date().toLocaleString()}` title is an opaque argument.
- **JavaScript number semantics.** Millisecond arithmetic is exact integer arithmetic. `Math.floor` over a double quotient agrees with it for every realistic time difference. Numbers in JSON bodies are integers.
- **Query parsing.** The `limit` and `keep` query values arrive already parsed, as `Option<nat>`. `parseInt` on non-numeric or negative text (NaN) is not modelled.
- **Falsy non-strings.** Non-string field values are not modelled, in the controller's body guards or in `NextChat.HandleChatRequest`, whose `session_id` the input check never inspects. Fields are absent, empty or non-empty strings. On the Next.js path a falsy non-string `session_id` (`0`, `false`) behaves as an absent one, `None`, and opens a new session; a truthy non-string (`42`) is a store error, the `up = false` case.
- **UUID syntax.** Ids are plain strings compared exactly; the `UUID` type of `chat_sessions.id` and `chat_messages.session_id` is not modelled. Only the canonical lower-case spelling that `gen_random_uuid()` produces is modelled. Postgres also reads upper-case, braced and hyphen-less spellings as the same UUID; in the model such a spelling of a stored id names no session. A request naming something that is not a UUID at all (say "not-a-uuid") makes Postgres fail with an invalid-input error, modelled only as the `up = false` case: the store answers an error, the service false and the handler 404.
- ChatService.DeleteMissingSession: speaks of ids in canonical form only; another spelling of a stored id would delete that session, and an id that is not a UUID is a store error.
- ChatController.DeleteMissingIsNotNotFound: speaks of ids in canonical form only; for an id that is not a UUID the handler answers 404.
- **NULL session_id.** The schema allows a NULL `session_id` on a message (no NOT NULL on the foreign key). Neither service path can write one, so the model requires every message to name a session.
- **500 responses.** The controller's 500 "Internal server error" path is not modelled. It answers thrown exceptions, and the modelled service never throws: store errors are already turned into sentinels.
- **Plumbing.** Express and Next routing, the rate limiter, logging, the content-type and size middlewares, the express-validator wrappers (which the routes never mount) and environment reading are out. The API key is a parameter of `Middlewares.ApplySecurity`.
- **Dashboard details.** The mock verification's random status and confidence, the two-second wait, evidence sources, the pricing page and all JSX rendering and styling are out. The result of a search is an input of `Dashboard.CompleteSearch`.
- **Duplicate entry ids.** `Date.now()` ids of dashboard entries may repeat across two actions in the same millisecond. The model only proves that the two entries of one action differ, and that only for a clock that does not run backwards between the two readings.

=== FILE: chat_controller.dfy ===
/** `ChatController` (backend/controllers/chat.controller.ts): the HTTP
    face of the chat store. Each handler guards its required fields, calls
    the service once and maps the service's sentinel (None, false) to a
    status code. Requests and responses are reduced to the values the
    handlers read and the `ApiResponse` they send. */
module ChatController {
  import opened Results
  import opened ChatTypes
  import opened Database
  import opened Ranking
  import opened ChatService
  import opened Text

  /** An `ApiResponse<T>` together with the status code it is sent with
      (200 when the handler sets none). */
  datatype Reply<T> = Reply(status: nat, success: bool, data: Option<T>, message: Option<string>, error: Option<string>)

  function Ok<T>(status: nat, data: Option<T>, message: Option<string>): Reply<T> {
    Reply(status, true, data, message, None)
  }

  function Fail<T>(status: nat, error: string): Reply<T> {
    Reply(status, false, None, None, Some(error))
  }

  /** A message body as it arrives: any of its fields may be missing. */
  datatype MessageBody = MessageBody(session_id: Option<string>, role: Option<string>, content: Option<string>)

  /** A title body as it arrives: the title may be missing. */
  datatype TitleBody = TitleBody(title: Option<string>)

  const MissingFields := "Missing required fields: session_id, role, content"
  const DefaultLimit: nat := 10
  const DefaultKeep: nat := 50

  /** `POST /api/chat/sessions`: 201 with the new session, or 400 when the
      service could not create one, in which case nothing was stored. */
  function CreateSessionHandler(st: Store, body: CreateSessionRequest, uuid: Id, up: bool): (r: (Store, Reply<Session>))
    ensures r.1.status == 201 || r.1.status == 400
    ensures r.1.success <==> r.1.status == 201
    ensures r.1.status == 201 <==> up && uuid !in st.sessions && Storable(TitleFor(body)) && Fit(TitleFor(body), TitleLimit).Some?
    ensures r.1.status == 400 ==> r.0 == st && r.1.error == Some("Failed to create session") && r.1.data.None?
    ensures r.1.status == 201 ==>
      && r.1.data.Some? && r.1.data.value.id == uuid
      && r.0.sessions.Keys == st.sessions.Keys + {uuid}
      && r.0.sessions[uuid] == r.1.data.value
      && r.1.data.value.title == Fit(TitleFor(body), TitleLimit).value
      && r.1.data.value.created_at == r.1.data.value.updated_at == st.clock
      && (forall id | id in st.sessions :: r.0.sessions[id] == st.sessions[id])
      && r.0.messages == st.messages
      && r.1.message == Some("Session created successfully")
    ensures Valid(st) ==> Valid(r.0)
  {
    var (st', session) := CreateSession(st, body, uuid, up);
    if session.None? then (st', Fail(400, "Failed to create session"))
    else (st', Ok(201, session, Some("Session created successfully")))
  }

  /** A title running past 255 characters only by trailing spaces is
      accepted: 201, with the title as given up to those spaces. */
  lemma PaddedTitleCreated(st: Store, title: string, pad: string, uuid: Id)
    requires title != "" && |title| <= TitleLimit && Storable(title)
    requires forall k | 0 <= k < |pad| :: pad[k] == ' '
    requires uuid !in st.sessions
    ensures var r := CreateSessionHandler(st, CreateSessionRequest(Some(title + pad)), uuid, true);
      && r.1.status == 201
      && r.1.data.value.title[..|title|] == title
  {
    FitPadding(title, pad, TitleLimit);
    StorableConcat(title, pad);
  }

  /** `POST /api/chat/messages`: 400 without touching the store when any of
      session_id, role or content is missing or empty; otherwise 201 with
      the appended message, or 400 when the service refused it. */
  function AddMessageHandler(st: Store, body: MessageBody, uuid: Id, up: bool): (r: (Store, Reply<Message>))
    ensures r.1.status == 201 || r.1.status == 400
    ensures r.1.success <==> r.1.status == 201
    ensures !(Given(body.session_id) && Given(body.role) && Given(body.content)) ==>
      r.0 == st && r.1 == Fail(400, MissingFields)
    ensures r.1.status == 201 <==>
      && Given(body.session_id) && Given(body.role) && Given(body.content)
      && up && (body.role.value == "user" || body.role.value == "assistant") && Storable(body.content.value)
      && uuid !in MessageIds(st.messages) && body.session_id.value in st.sessions
    ensures r.1.status == 400 ==> r.0 == st && r.1.data.None?
    ensures Given(body.session_id) && Given(body.role) && Given(body.content) && r.1.status == 400 ==>
      r.1.error == Some("Failed to add message")
    ensures r.1.status == 201 ==>
      && r.1.data.Some?
      && r.1.data.value.session_id == body.session_id.value
      && RoleName(r.1.data.value.role) == body.role.value
      && r.1.data.value.content == body.content.value
      && r.1.data.value.id == uuid
      && r.1.data.value.created_at == st.clock
      && r.0.messages == st.messages + [r.1.data.value]
      && r.0.sessions == st.sessions[body.session_id.value := st.sessions[body.session_id.value].(updated_at := st.clock)]
      && r.1.message == Some("Message added successfully")
    ensures Valid(st) ==> Valid(r.0)
  {
    if !(Given(body.session_id) && Given(body.role) && Given(body.content)) then
      (st, Fail(400, MissingFields))
    else
      var req := CreateMessageRequest(body.session_id.value, body.role.value, body.content.value);
      var (st', message) := AddMessage(st, req, uuid, up);
      if message.None? then (st', Fail(400, "Failed to add message"))
      else (st', Ok(201, message, Some("Message added successfully")))
  }

  /** The store accepts an empty message while the handler turns it away:
      the only guard against empty content is the controller's. */
  lemma EmptyContentOnlyGuardedHere(st: Store, sessionId: Id, uuid: Id)
    requires sessionId in st.sessions && sessionId != ""
    requires uuid !in MessageIds(st.messages)
    ensures AddMessage(st, CreateMessageRequest(sessionId, "user", ""), uuid, true).1.Some?
    ensures AddMessageHandler(st, MessageBody(Some(sessionId), Some("user"), Some("")), uuid, true).1.status == 400
  {
  }

  /** `GET /api/chat/sessions/:id/messages`: always a success, carrying the
      session's messages in creation order (empty on a store error). */
  function GetSessionMessagesHandler(st: Store, sessionId: Id, up: bool): (r: Reply<seq<Message>>)
    ensures r.status == 200 && r.success && r.data.Some?
    ensures up ==> forall m :: m in r.data.value <==> m in st.messages && m.session_id == sessionId
    ensures !up ==> r.data.value == []
    ensures Valid(st) ==> Chronological(r.data.value)
  {
    Ok(200, Some(GetSessionMessages(st, sessionId, up)), None)
  }

  /** `GET /api/chat/sessions/:id`: the session with its messages, or 404
      "Session not found" when the lookup fails. */
  function GetSessionHandler(st: Store, sessionId: Id, sessionUp: bool, messagesUp: bool): (r: Reply<SessionWithMessages>)
    ensures r.status == 200 || r.status == 404
    ensures r.success <==> r.status == 200
    ensures r.status == 404 <==> !(sessionUp && sessionId in st.sessions)
    ensures r.status == 404 ==> r.error == Some("Session not found") && r.data.None?
    ensures r.status == 200 ==>
      && r.data.Some?
      && r.data.value.Base() == st.sessions[sessionId]
      && r.data.value.messages == GetSessionMessages(st, sessionId, messagesUp)
      && (messagesUp ==> forall m :: m in r.data.value.messages <==> m in st.messages && m.session_id == sessionId)
      && (!messagesUp ==> r.data.value.messages == [])
  {
    var session := GetSessionWithMessages(st, sessionId, sessionUp, messagesUp);
    if session.None? then Fail(404, "Session not found")
    else Ok(200, session, None)
  }

  /** `GET /api/chat/sessions`: always a success, listing the `limit`
      (10 when absent) most recently updated sessions, newest first, each
      with its message count and latest message; an empty list when the
      store fails. */
  method GetAllSessionsHandler(st: Store, limit: Option<nat>, up: bool) returns (r: Reply<seq<SessionWithLatestMessage>>)
    ensures r.status == 200 && r.success && r.data.Some?
    ensures !up ==> r.data.value == []
    ensures up ==> |r.data.value| == Min(limit.GetOr(DefaultLimit), |st.sessions|)
    ensures limit.None? ==> |r.data.value| <= 10
    ensures forall i, j | 0 <= i < j < |r.data.value| :: r.data.value[j].updated_at <= r.data.value[i].updated_at
    ensures Valid(st) ==> forall i | 0 <= i < |r.data.value| ::
      && r.data.value[i].id in st.sessions
      && r.data.value[i].Base() == st.sessions[r.data.value[i].id]
      && r.data.value[i].message_count == Some(|OwnedBy(st.messages, r.data.value[i].id)|)
      && (r.data.value[i].latest_message.None? <==> forall m | m in st.messages :: m.session_id != r.data.value[i].id)
      && (r.data.value[i].latest_message.Some? ==>
            && r.data.value[i].latest_message.value in st.messages
            && r.data.value[i].latest_message.value.session_id == r.data.value[i].id
            && forall m | m in st.messages && m.session_id == r.data.value[i].id ::
                 m.created_at <= r.data.value[i].latest_message.value.created_at)
    ensures Valid(st) ==> forall i, j | 0 <= i < j < |r.data.value| :: r.data.value[i].id != r.data.value[j].id
    ensures Valid(st) ==> forall id | id in st.sessions && id !in Listed(r.data.value) ::
      forall i | 0 <= i < |r.data.value| :: st.sessions[id].updated_at <= r.data.value[i].updated_at
  {
    var sessions := GetRecentSessions(st, limit.GetOr(DefaultLimit), up);
    r := Ok(200, Some(sessions), None);
  }

  /** `PUT /api/chat/sessions/:id`: 400 "Title is required" without touching
      the store when the title is missing or empty; otherwise the renamed
      session, or 404 when no session matched or the store failed. */
  function UpdateSessionHandler(st: Store, sessionId: Id, body: TitleBody, up: bool): (r: (Store, Reply<Session>))
    ensures r.1.status in {200, 400, 404}
    ensures r.1.success <==> r.1.status == 200
    ensures r.1.status == 400 <==> !Given(body.title)
    ensures r.1.status == 400 ==> r.0 == st && r.1.error == Some("Title is required")
    ensures r.1.status == 404 ==> r.0 == st && r.1.error == Some("Session not found or failed to update")
    ensures r.1.status == 200 <==>
      Given(body.title) && up && sessionId in st.sessions && Storable(body.title.value) && Fit(body.title.value, TitleLimit).Some?
    ensures r.1.status == 200 ==>
      && r.1.data.Some?
      && r.1.data.value == st.sessions[sessionId].(title := Fit(body.title.value, TitleLimit).value)
      && r.0.sessions == st.sessions[sessionId := r.1.data.value]
      && r.0.messages == st.messages
    ensures Valid(st) ==> Valid(r.0)
  {
    if !Given(body.title) then (st, Fail(400, "Title is required"))
    else
      var (st', session) := UpdateSession(st, sessionId, UpdateSessionRequest(body.title.value), up);
      if session.None? then (st', Fail(404, "Session not found or failed to update"))
      else (st', Ok(200, session, Some("Session updated successfully")))
  }

  /** `DELETE /api/chat/sessions/:id`: 200 whenever the store answers, 404
      only on a store error. */
  function DeleteSessionHandler(st: Store, sessionId: Id, up: bool): (r: (Store, Reply<()>))
    ensures r.1.status == 200 <==> up
    ensures !up ==> r.0 == st && r.1 == Fail(404, "Session not found or failed to delete")
    ensures up ==>
      && sessionId !in r.0.sessions
      && r.0.sessions.Keys == st.sessions.Keys - {sessionId}
      && (forall id | id in r.0.sessions :: r.0.sessions[id] == st.sessions[id])
      && (forall m :: m in r.0.messages <==> m in st.messages && m.session_id != sessionId)
      && r.0.clock == st.clock
      && r.1.message == Some("Session deleted successfully")
    ensures Valid(st) ==> Valid(r.0)
  {
    var (st', ok) := DeleteSession(st, sessionId, up);
    if !ok then (st', Fail(404, "Session not found or failed to delete"))
    else (st', Ok(200, None, Some("Session deleted successfully")))
  }

  /** Despite its error text, the delete handler never answers 404 for an id
      in canonical form that names no session: it reports success and leaves
      the store alone. (An id that is not a UUID is a store error, `up` false,
      and gets the 404.) */
  lemma DeleteMissingIsNotNotFound(st: Store, sessionId: Id)
    requires Valid(st) && sessionId !in st.sessions
    ensures DeleteSessionHandler(st, sessionId, true).1.status == 200
    ensures DeleteSessionHandler(st, sessionId, true).0 == st
  {
    DeleteMissingSession(st, sessionId);
  }

  /** The success text of the cleanup handler. */
  function ClearedMessage(keep: nat): string {
    "Old sessions cleared, keeping " + Show(keep) + " recent sessions"
  }

  /** `DELETE /api/chat/sessions/cleanup`: keeps the `keep` (50 when absent)
      most recently updated sessions; 400 when the service answers false. */
  method ClearOldSessionsHandler(st: Store, keep: Option<nat>, fetchUp: bool, deleteUp: bool)
    returns (st': Store, r: Reply<()>)
    ensures r.status == 200 || r.status == 400
    ensures r.status == 200 <==> fetchUp && deleteUp && keep.GetOr(DefaultKeep) > 0 && |st.sessions| > 0
    ensures r.status == 400 ==> st' == st && r.error == Some("Failed to clear old sessions")
    ensures r.status == 200 ==>
      && |st'.sessions| == Min(keep.GetOr(DefaultKeep), |st.sessions|)
      && st'.sessions.Keys <= st.sessions.Keys
      && (forall id | id in st'.sessions :: st'.sessions[id] == st.sessions[id])
      && (forall gone, kept | gone in st.sessions && gone !in st'.sessions && kept in st'.sessions ::
            st.sessions[gone].updated_at <= st.sessions[kept].updated_at)
      && (forall m :: m in st'.messages <==>
            m in st.messages && m.session_id !in st.sessions.Keys - st'.sessions.Keys)
      && st'.clock == st.clock
      && r.message == Some(ClearedMessage(keep.GetOr(DefaultKeep)))
    ensures Valid(st) ==> Valid(st')
  {
    var keepCount := keep.GetOr(DefaultKeep);
    var ok;
    st', ok := ClearOldSessions(st, keepCount, fetchUp, deleteUp);
    if !ok {
      r := Fail(400, "Failed to clear old sessions");
    } else {
      r := Ok(200, None, Some(ClearedMessage(keepCount)));
    }
  }

  /** The cleanup message names the count that was kept, and different
      counts give different messages. */
  lemma ClearedMessageNamesCount(a: nat, b: nat)
    ensures ClearedMessage(a) == ClearedMessage(b) <==> a == b
  {
    var pre := "Old sessions cleared, keeping ";
    var post := " recent sessions";
    if ClearedMessage(a) == ClearedMessage(b) {
      assert (pre + Show(a)) + post == (pre + Show(b)) + post;
      TakeSuffix(pre + Show(a), pre + Show(b), post);
      TakePrefix(pre, Show(a), Show(b));
      ShowInjective(a, b);
    }
  }

  /** Equal strings with equal tails have equal heads. */
  lemma TakeSuffix(a: string, b: string, c: string)
    requires a + c == b + c
    ensures a == b
  {
    assert |a| == |b|;
    forall k | 0 <= k < |a| ensures a[k] == b[k] {
      assert a[k] == (a + c)[k] && b[k] == (b + c)[k];
    }
  }

  /** Equal strings with equal heads have equal tails. */
  lemma TakePrefix(p: string, a: string, b: string)
    requires p + a == p + b
    ensures a == b
  {
    assert a == (p + a)[|p|..] && b == (p + b)[|p|..];
  }
}

=== FILE: chat_service.dfy ===
/** `ChatService` (backend/models/chat.servic.ts): session lifecycle,
    message append, summary listings and retention pruning over the
    datastore. Every operation is fail-soft: a store error becomes `null`
    (None), an empty list or `false`, and the caller cannot tell a missing
    row from a failed round trip. The service validates no field itself; what
    it accepts is exactly what the datastore accepts. */
module ChatService {
  import opened Results
  import opened ChatTypes
  import opened Database
  import opened Ranking

  /** `data.title || 'New Chat'`: an omitted or empty title becomes the default. */
  function TitleFor(req: CreateSessionRequest): string {
    if req.title.Some? && req.title.value != "" then req.title.value else DefaultTitle
  }

  /** `createSession`: a new session under the generated id `uuid`, titled
      as requested or "New Chat"; a title with spaces past 255 characters
      is stored with those spaces clipped. Other sessions and all messages
      are unchanged. */
  function CreateSession(st: Store, req: CreateSessionRequest, uuid: Id, up: bool): (r: (Store, Option<Session>))
    ensures r.1.Some? <==> up && uuid !in st.sessions && Storable(TitleFor(req)) && Fit(TitleFor(req), TitleLimit).Some?
    ensures r.1.None? ==> r.0 == st
    ensures r.1.Some? ==>
      && r.1.value.id == uuid
      && r.1.value.title != ""
      && (req.title.Some? && req.title.value != "" ==> r.1.value.title == Fit(req.title.value, TitleLimit).value)
      && (req.title.None? || req.title.value == "" ==> r.1.value.title == "New Chat")
      && r.1.value.created_at == r.1.value.updated_at == st.clock
      && r.0.sessions.Keys == st.sessions.Keys + {uuid}
      && r.0.sessions[uuid] == r.1.value
      && (forall id | id in st.sessions :: r.0.sessions[id] == st.sessions[id])
      && r.0.messages == st.messages
    ensures Valid(st) ==> Valid(r.0)
  {
    var (st', res) := InsertSession(st, Some(TitleFor(req)), uuid, up);
    (st', res.ToOption())
  }

  /** `addMessage`: on an existing session and an accepted role, appends
      exactly one message carrying the request's fields and, through the
      trigger, moves that session's `updated_at` to now, never backwards.
      On an unknown session, a bad role, a taken key or a store error,
      answers None and leaves the store as it was. */
  function AddMessage(st: Store, req: CreateMessageRequest, uuid: Id, up: bool): (r: (Store, Option<Message>))
    ensures r.1.Some? <==>
      && up && (req.role == "user" || req.role == "assistant") && Storable(req.content)
      && uuid !in MessageIds(st.messages) && req.session_id in st.sessions
    ensures r.1.None? ==> r.0 == st
    ensures r.1.Some? ==>
      && r.1.value.id == uuid
      && r.1.value.session_id == req.session_id
      && RoleName(r.1.value.role) == req.role
      && r.1.value.content == req.content
      && r.1.value.created_at == st.clock
      && r.0.messages == st.messages + [r.1.value]
      && r.0.sessions.Keys == st.sessions.Keys
      && r.0.sessions[req.session_id].updated_at == st.clock
      && r.0.sessions[req.session_id].title == st.sessions[req.session_id].title
      && r.0.sessions[req.session_id].created_at == st.sessions[req.session_id].created_at
      && (forall id | id in st.sessions && id != req.session_id :: r.0.sessions[id] == st.sessions[id])
    ensures r.1.Some? && Valid(st) ==>
      st.sessions[req.session_id].updated_at <= r.0.sessions[req.session_id].updated_at
    ensures Valid(st) ==> Valid(r.0)
  {
    var (st', res) := InsertMessage(st, req.session_id, req.role, req.content, uuid, up);
    (st', res.ToOption())
  }

  /** `getSessionMessages`: exactly the messages of `sessionId`, ascending
      by creation time; the empty list, never null, when there are none or
      the fetch fails. */
  function GetSessionMessages(st: Store, sessionId: Id, up: bool): (r: seq<Message>)
    ensures !up ==> r == []
    ensures up ==> forall m :: m in r <==> m in st.messages && m.session_id == sessionId
    ensures Valid(st) ==> Chronological(r) && DistinctIds(r)
  {
    SelectMessages(st, sessionId, up).ToOption().GetOr([])
  }

  /** Reading back right after an append ends with the appended message,
      even when earlier messages carry the same stamp: the store breaks such
      ties by insertion order. */
  lemma AppendThenRead(st: Store, req: CreateMessageRequest, uuid: Id)
    requires AddMessage(st, req, uuid, true).1.Some?
    ensures var (st', m) := AddMessage(st, req, uuid, true);
      var msgs := GetSessionMessages(st', req.session_id, true);
      && |msgs| > 0 && msgs[|msgs| - 1] == m.value
      && msgs[..|msgs| - 1] == GetSessionMessages(st, req.session_id, true)
  {
    var (st', m) := AddMessage(st, req, uuid, true);
    assert st'.messages == st.messages + [m.value];
    assert st'.messages[..|st.messages|] == st.messages;
  }

  /** `getSessionWithMessages`: None exactly when the session lookup fails;
      otherwise the session's own fields followed by `getSessionMessages`,
      which may be empty if the second fetch fails. */
  function GetSessionWithMessages(st: Store, sessionId: Id, sessionUp: bool, messagesUp: bool): (r: Option<SessionWithMessages>)
    ensures r.None? <==> !(sessionUp && sessionId in st.sessions)
    ensures r.Some? ==> r.value.Base() == st.sessions[sessionId]
    ensures r.Some? ==> r.value.messages == GetSessionMessages(st, sessionId, messagesUp)
  {
    match SelectSession(st, sessionId, sessionUp)
    case Failure(_) => None
    case Success(s) => Some(Extend(s, GetSessionMessages(st, sessionId, messagesUp)))
  }

  /** A session no message belongs to reads back as an empty conversation. */
  lemma NoMessagesYet(st: Store, sessionId: Id)
    requires forall m | m in st.messages :: m.session_id != sessionId
    ensures GetSessionMessages(st, sessionId, true) == []
  {
    OwnedByNone(st.messages, sessionId);
  }

  /** One append to a session whose conversation reads `before`: the store
      now reads `before` followed by the new message, and the session's
      `updated_at` is the clock reading. */
  lemma Turn(st: Store, req: CreateMessageRequest, uuid: Id, before: seq<Message>)
    requires req.role == "user" || req.role == "assistant"
    requires Storable(req.content)
    requires uuid !in MessageIds(st.messages) && req.session_id in st.sessions
    requires GetSessionMessages(st, req.session_id, true) == before
    ensures AddMessage(st, req, uuid, true).1.Some?
    ensures GetSessionMessages(AddMessage(st, req, uuid, true).0, req.session_id, true)
         == before + [AddMessage(st, req, uuid, true).1.value]
  {
    AppendThenRead(st, req, uuid);
    var msgs := GetSessionMessages(AddMessage(st, req, uuid, true).0, req.session_id, true);
    assert msgs == msgs[..|msgs| - 1] + [msgs[|msgs| - 1]];
  }

  /** A fresh untitled session, then a user turn and an assistant turn an
      instant apart: the session is called "New Chat", each turn is stamped
      after the one before, the reply moves the session's `updated_at`
      forward, and reading the session back lists both turns in order. */
  lemma TwoTurnConversation(st: Store, sessionUuid: Id, userUuid: Id, replyUuid: Id,
                            question: string, answer: string, created: (Store, Option<Session>), asked: (Store, Option<Message>),
                            answered: (Store, Option<Message>))
    requires Valid(st)
    requires sessionUuid !in st.sessions
    requires userUuid != replyUuid
    requires userUuid !in MessageIds(st.messages) && replyUuid !in MessageIds(st.messages)
    requires Storable(question) && Storable(answer)
    requires created == CreateSession(st, CreateSessionRequest(None), sessionUuid, true)
    requires asked == AddMessage(Elapse(created.0, 1), CreateMessageRequest(sessionUuid, "user", question), userUuid, true)
    requires answered == AddMessage(Elapse(asked.0, 1), CreateMessageRequest(sessionUuid, "assistant", answer), replyUuid, true)
    ensures created.1.Some? && created.1.value.title == "New Chat"
    ensures asked.1.Some? && asked.1.value.created_at > created.1.value.created_at
    ensures answered.1.Some? && answered.1.value.created_at > asked.1.value.created_at
    ensures answered.0.sessions[sessionUuid].updated_at > asked.0.sessions[sessionUuid].updated_at
    ensures GetSessionWithMessages(answered.0, sessionUuid, true, true).Some?
    ensures GetSessionWithMessages(answered.0, sessionUuid, true, true).value.title == "New Chat"
    ensures GetSessionWithMessages(answered.0, sessionUuid, true, true).value.messages
         == [asked.1.value] + [answered.1.value]
  {
    TwoTurnReadBack(st, sessionUuid, userUuid, replyUuid, question, answer, created, asked, answered);
  }

  /** The read-back half of `TwoTurnConversation`. */
  lemma TwoTurnReadBack(st: Store, sessionUuid: Id, userUuid: Id, replyUuid: Id,
                        question: string, answer: string, created: (Store, Option<Session>), asked: (Store, Option<Message>),
                        answered: (Store, Option<Message>))
    requires Valid(st)
    requires sessionUuid !in st.sessions
    requires userUuid != replyUuid
    requires userUuid !in MessageIds(st.messages) && replyUuid !in MessageIds(st.messages)
    requires Storable(question) && Storable(answer)
    requires created == CreateSession(st, CreateSessionRequest(None), sessionUuid, true)
    requires asked == AddMessage(Elapse(created.0, 1), CreateMessageRequest(sessionUuid, "user", question), userUuid, true)
    requires answered == AddMessage(Elapse(asked.0, 1), CreateMessageRequest(sessionUuid, "assistant", answer), replyUuid, true)
    ensures asked.1.Some? && answered.1.Some?
    ensures GetSessionMessages(answered.0, sessionUuid, true) == [asked.1.value] + [answered.1.value]
  {
    FirstTurn(st, sessionUuid, userUuid, replyUuid, question, created, asked);
    Turn(Elapse(asked.0, 1), CreateMessageRequest(sessionUuid, "assistant", answer), replyUuid, [asked.1.value]);
  }

  /** The first turn of `TwoTurnReadBack`: the new session reads back as the
      user's message alone, and the reply's key is still free. */
  lemma FirstTurn(st: Store, sessionUuid: Id, userUuid: Id, replyUuid: Id, question: string,
                  created: (Store, Option<Session>), asked: (Store, Option<Message>))
    requires Valid(st)
    requires sessionUuid !in st.sessions
    requires userUuid != replyUuid
    requires userUuid !in MessageIds(st.messages) && replyUuid !in MessageIds(st.messages)
    requires Storable(question)
    requires created == CreateSession(st, CreateSessionRequest(None), sessionUuid, true)
    requires asked == AddMessage(Elapse(created.0, 1), CreateMessageRequest(sessionUuid, "user", question), userUuid, true)
    ensures asked.1.Some?
    ensures GetSessionMessages(asked.0, sessionUuid, true) == [asked.1.value]
    ensures sessionUuid in asked.0.sessions && replyUuid !in MessageIds(asked.0.messages)
  {
    var st1 := Elapse(created.0, 1);
    OpenedEmpty(st, sessionUuid, created);
    Turn(st1, CreateMessageRequest(sessionUuid, "user", question), userUuid, []);
    MessageIdsAppend(st.messages, asked.1.value);
    assert MessageIds(asked.0.messages) == MessageIds(st.messages) + {userUuid};
    assert [] + [asked.1.value] == [asked.1.value];
  }

  /** A session just created under a key no row uses holds no messages,
      and the messages already stored are untouched. */
  lemma OpenedEmpty(st: Store, sessionUuid: Id, created: (Store, Option<Session>))
    requires Valid(st) && sessionUuid !in st.sessions
    requires created == CreateSession(st, CreateSessionRequest(None), sessionUuid, true)
    ensures sessionUuid in created.0.sessions && created.0.messages == st.messages
    ensures GetSessionMessages(Elapse(created.0, 1), sessionUuid, true) == []
  {
    assert forall m | m in st.messages :: m.session_id != sessionUuid;
    NoMessagesYet(Elapse(created.0, 1), sessionUuid);
  }

  /** `getAllSessions`: every session once, most recently updated first;
      the empty list on a store error. */
  method GetAllSessions(st: Store, up: bool) returns (r: seq<Session>)
    ensures !up ==> r == []
    ensures up ==> |r| == |st.sessions|
    ensures forall i | 0 <= i < |r| :: r[i] in st.sessions.Values
    ensures forall i, j | 0 <= i < j < |r| :: r[j].updated_at <= r[i].updated_at
    ensures up && Valid(st) ==> forall id | id in st.sessions :: st.sessions[id] in r
  {
    if !up {
      return [];
    }
    var ids := SelectRecent(st.sessions, |st.sessions|);
    r := seq(|ids|, i requires 0 <= i < |ids| => st.sessions[ids[i]]);
    if Valid(st) {
      RankingCoversAll(st.sessions, ids);
      forall id | id in st.sessions ensures st.sessions[id] in r {
        var k :| 0 <= k < |ids| && ids[k] == id;
        assert r[k] == st.sessions[id];
      }
    }
  }

  /** The identifiers a listing names. */
  ghost function Listed(r: seq<SessionWithLatestMessage>): set<Id> {
    set i | 0 <= i < |r| :: r[i].id
  }

  /** The summary of session `id`: its fields, its latest message and its count. */
  function SummaryOf(st: Store, id: Id): SessionWithLatestMessage
    requires id in st.sessions
  {
    var own := OwnedBy(st.messages, id);
    Summarise(st.sessions[id], Latest(own), |own|)
  }

  /** `getRecentSessions(limit)`: the `limit` most recently updated sessions,
      newest first, none left out updated later than one listed; each with
      the number of messages it owns and a message of greatest creation time,
      absent when it owns none. The empty list on a store error. */
  method GetRecentSessions(st: Store, limit: nat, up: bool) returns (r: seq<SessionWithLatestMessage>)
    ensures !up ==> r == []
    ensures up ==> |r| == Min(limit, |st.sessions|)
    ensures forall i, j | 0 <= i < j < |r| :: r[j].updated_at <= r[i].updated_at
    ensures Valid(st) ==> forall i | 0 <= i < |r| ::
      && r[i].id in st.sessions
      && r[i].Base() == st.sessions[r[i].id]
      && r[i].message_count == Some(|OwnedBy(st.messages, r[i].id)|)
      && (r[i].latest_message.None? <==> forall m | m in st.messages :: m.session_id != r[i].id)
      && (r[i].latest_message.Some? ==>
            && r[i].latest_message.value in st.messages
            && r[i].latest_message.value.session_id == r[i].id
            && forall m | m in st.messages && m.session_id == r[i].id ::
                 m.created_at <= r[i].latest_message.value.created_at)
    ensures Valid(st) ==> forall i, j | 0 <= i < j < |r| :: r[i].id != r[j].id
    ensures Valid(st) ==> forall id | id in st.sessions && id !in Listed(r) ::
      forall i | 0 <= i < |r| :: st.sessions[id].updated_at <= r[i].updated_at
  {
    if !up {
      return [];
    }
    var ids := SelectRecent(st.sessions, limit);
    r := seq(|ids|, i requires 0 <= i < |ids| => SummaryOf(st, ids[i]));
    if Valid(st) {
      assert forall i | 0 <= i < |r| :: r[i].id == ids[i];
      forall id | id in st.sessions && id !in Listed(r)
        ensures forall i | 0 <= i < |r| :: st.sessions[id].updated_at <= r[i].updated_at
      {
        assert id !in ids;
      }
    }
  }

  /** `updateSession`: changes only the title of the matched session
      (timestamps and messages untouched, since no trigger fires on a
      session update); None, with nothing changed, when no row matches, the
      title does not fit or the store fails. A title with spaces past 255
      characters is stored with those spaces clipped. The service itself
      accepts an empty title. */
  function UpdateSession(st: Store, sessionId: Id, req: UpdateSessionRequest, up: bool): (r: (Store, Option<Session>))
    ensures r.1.Some? <==> up && sessionId in st.sessions && Storable(req.title) && Fit(req.title, TitleLimit).Some?
    ensures r.1.None? ==> r.0 == st
    ensures r.1.Some? ==>
      && r.1.value.title == Fit(req.title, TitleLimit).value
      && r.1.value.id == st.sessions[sessionId].id
      && r.1.value.created_at == st.sessions[sessionId].created_at
      && r.1.value.updated_at == st.sessions[sessionId].updated_at
      && r.0.sessions.Keys == st.sessions.Keys
      && r.0.sessions[sessionId] == r.1.value
      && (forall id | id in st.sessions && id != sessionId :: r.0.sessions[id] == st.sessions[id])
      && r.0.messages == st.messages
    ensures Valid(st) ==> Valid(r.0)
  {
    var (st', res) := UpdateTitle(st, sessionId, req.title, up);
    (st', res.ToOption())
  }

  /** `deleteSession`: removes the session and, by cascade, all its
      messages; answers true whenever the store reports no error, also when
      no session had that id. */
  function DeleteSession(st: Store, sessionId: Id, up: bool): (r: (Store, bool))
    ensures r.1 == up
    ensures !up ==> r.0 == st
    ensures up ==>
      && r.0.sessions.Keys == st.sessions.Keys - {sessionId}
      && (forall id | id in r.0.sessions :: r.0.sessions[id] == st.sessions[id])
      && (forall m :: m in r.0.messages <==> m in st.messages && m.session_id != sessionId)
    ensures Valid(st) ==> Valid(r.0)
  {
    var (st', res) := DeleteSessions(st, {sessionId}, up);
    (st', res.Success?)
  }

  /** Deleting an id in canonical form that names no session reports
      success and changes nothing. (An id that is not a UUID is a store
      error, `up` false.) */
  lemma DeleteMissingSession(st: Store, sessionId: Id)
    requires Valid(st) && sessionId !in st.sessions
    ensures DeleteSession(st, sessionId, true) == (st, true)
  {
    var st' := DeleteSession(st, sessionId, true).0;
    assert st'.sessions == st.sessions;
    SurvivorsOfNone(st.messages, {sessionId});
  }

  /** `clearOldSessions(keep)`: captures the `keep` most recently updated
      session ids, then deletes every other session and, by cascade, their
      messages. With no sessions, with `keep` = 0 or on a store error it
      answers false and deletes nothing. On success exactly min(keep, total)
      sessions survive, unchanged, none of those removed was updated later
      than a survivor, and no message of a removed session remains. */
  method ClearOldSessions(st: Store, keep: nat, fetchUp: bool, deleteUp: bool) returns (st': Store, ok: bool)
    ensures ok <==> fetchUp && deleteUp && keep > 0 && |st.sessions| > 0
    ensures !ok ==> st' == st
    ensures ok ==>
      && |st'.sessions| == Min(keep, |st.sessions|)
      && st'.sessions.Keys <= st.sessions.Keys
      && (forall id | id in st'.sessions :: st'.sessions[id] == st.sessions[id])
      && (forall gone, kept | gone in st.sessions && gone !in st'.sessions && kept in st'.sessions ::
            st.sessions[gone].updated_at <= st.sessions[kept].updated_at)
      && (forall m :: m in st'.messages <==>
            m in st.messages && m.session_id !in st.sessions.Keys - st'.sessions.Keys)
      && st'.clock == st.clock
    ensures Valid(st) ==> Valid(st')
  {
    if !fetchUp {
      return st, false;
    }
    var ids := SelectRecent(st.sessions, keep);
    if |ids| == 0 {
      return st, false;
    }
    var keepIds := set i | 0 <= i < |ids| :: ids[i];
    var doomed := st.sessions.Keys - keepIds;
    var (after, res) := DeleteSessions(st, doomed, deleteUp);
    if res.Failure? {
      return st, false;
    }
    RetentionKeepsCaptured(st.sessions, ids);
    assert after.sessions.Keys == keepIds;
    assert |after.sessions| == |after.sessions.Keys|;
    assert doomed == st.sessions.Keys - after.sessions.Keys;
    st', ok := after, true;
  }

  /** The ids captured by the ranking are as many as the ranking is long,
      and every session outside them was updated no later than each of them. */
  lemma RetentionKeepsCaptured(sessions: map<Id, Session>, ids: seq<Id>)
    requires RankedByRecency(sessions, ids)
    requires forall id | id in sessions && id !in ids :: Outranked(sessions, ids, id)
    ensures var keepIds := set i | 0 <= i < |ids| :: ids[i];
      && keepIds <= sessions.Keys
      && |keepIds| == |ids|
      && forall gone, kept | gone in sessions && gone !in keepIds && kept in keepIds ::
           sessions[gone].updated_at <= sessions[kept].updated_at
  {
    var keepIds := set i | 0 <= i < |ids| :: ids[i];
    DistinctCardinality(ids);
    forall gone, kept | gone in sessions && gone !in keepIds && kept in keepIds
      ensures sessions[gone].updated_at <= sessions[kept].updated_at
    {
      var k :| 0 <= k < |ids| && ids[k] == kept;
      assert gone !in ids;
      assert Outranked(sessions, ids, gone);
    }
  }
}

=== FILE: chat_types.dfy ===
/** The records the chat store keeps and the request shapes its service
    accepts (backend/models/chat.types.ts). Timestamps are whole numbers read
    off a monotone clock instead of ISO strings. */
module ChatTypes {
  import opened Results

  /** A row identifier: the store generates a UUID for every new row. */
  type Id = string

  /** A reading of the datastore clock, `NOW()`. */
  type Timestamp = nat

  /** Who wrote a message: exactly one of 'user' | 'assistant'. */
  datatype Role = User | Assistant

  /** The text the `role` column holds for a role. */
  function RoleName(r: Role): string {
    match r
    case User => "user"
    case Assistant => "assistant"
  }

  /** Reads a role column value; the only accepted spellings are 'user' and
      'assistant', and reading is the inverse of `RoleName`. */
  function ParseRole(s: string): (r: Option<Role>)
    ensures r.Some? <==> s == "user" || s == "assistant"
    ensures r.Some? ==> RoleName(r.value) == s
    ensures forall role: Role :: s == RoleName(role) ==> r == Some(role)
  {
    if s == "user" then Some(User)
    else if s == "assistant" then Some(Assistant)
    else None
  }

  /** A conversation container. */
  datatype Session = Session(id: Id, title: string, created_at: Timestamp, updated_at: Timestamp)

  /** One turn of a conversation, owned by the session `session_id`. */
  datatype Message = Message(id: Id, session_id: Id, role: Role, content: string, created_at: Timestamp)

  /** Body of a create-session request: the title may be omitted. */
  datatype CreateSessionRequest = CreateSessionRequest(title: Option<string>)

  /** Body of an add-message request. The role is the raw text the caller
      sent; nothing before the datastore's CHECK constraint restricts it. */
  datatype CreateMessageRequest = CreateMessageRequest(session_id: Id, role: string, content: string)

  /** Body of an update-session request: the title is mandatory. */
  datatype UpdateSessionRequest = UpdateSessionRequest(title: string)

  /** A session's own fields followed by its messages (`{ ...session, messages }`). */
  datatype SessionWithMessages = SessionWithMessages(
    id: Id, title: string, created_at: Timestamp, updated_at: Timestamp,
    messages: seq<Message>)
  {
    /** The `ChatSession` part of the record. */
    function Base(): Session {
      Session(id, title, created_at, updated_at)
    }
  }

  /** A session summary for listings; the latest message and the count are
      optional, so a session without messages is representable. */
  datatype SessionWithLatestMessage = SessionWithLatestMessage(
    id: Id, title: string, created_at: Timestamp, updated_at: Timestamp,
    latest_message: Option<Message>, message_count: Option<nat>)
  {
    /** The `ChatSession` part of the record. */
    function Base(): Session {
      Session(id, title, created_at, updated_at)
    }
  }

  /** Spreads a session into a record that also lists `messages`. */
  function Extend(s: Session, messages: seq<Message>): (r: SessionWithMessages)
    ensures r.Base() == s
    ensures r.messages == messages
  {
    SessionWithMessages(s.id, s.title, s.created_at, s.updated_at, messages)
  }

  /** Spreads a session into a summary record. */
  function Summarise(s: Session, latest: Option<Message>, count: nat): (r: SessionWithLatestMessage)
    ensures r.Base() == s
    ensures r.latest_message == latest && r.message_count == Some(count)
  {
    SessionWithLatestMessage(s.id, s.title, s.created_at, s.updated_at, latest, Some(count))
  }
}

=== FILE: dashboard.dfy ===
/** The chat list of the verification dashboard (src/components/Dashboard.tsx)
    as a state machine: a search appends the user's claim and a loading
    placeholder, completion replaces every placeholder with the result, and
    picking a past verification appends it directly. Entry ids are
    `Date.now()` readings rendered as decimal text. Each entry reads the
    clock on its own, so an action that appends two entries takes two
    readings, `first <= second`; the readings and the verification result
    (random in the TypeScript code) are inputs. */
module Dashboard {
  import opened Results
  import opened Text
  import opened Display

  /** Who an entry speaks for. */
  datatype Kind = UserEntry | AssistantEntry

  /** A `ChatMessage` of the dashboard; an absent `isLoading` is false. */
  datatype Entry = Entry(id: string, kind: Kind, content: string, result: Option<Verification>, isLoading: bool)

  /** The chat list together with the page-wide `isLoading` flag. */
  datatype ChatView = ChatView(messages: seq<Entry>, isLoading: bool)

  /** Number of entries still waiting for a result. */
  function LoadingCount(msgs: seq<Entry>): (n: nat)
    ensures n <= |msgs|
    ensures n == 0 <==> forall i | 0 <= i < |msgs| :: !msgs[i].isLoading
  {
    if |msgs| == 0 then 0
    else LoadingCount(msgs[..|msgs| - 1]) + (if msgs[|msgs| - 1].isLoading then 1 else 0)
  }

  /** The view is consistent: one placeholder while a search runs, none
      otherwise. */
  predicate Consistent(v: ChatView) {
    LoadingCount(v.messages) == if v.isLoading then 1 else 0
  }

  /** The page as first shown: no entries, nothing loading. */
  function Initial(): (v: ChatView)
    ensures Consistent(v) && !v.isLoading
  {
    ChatView([], false)
  }

  /** The user's claim as an entry. */
  function Asked(id: string, claim: string): Entry {
    Entry(id, UserEntry, claim, None, false)
  }

  /** The placeholder shown while a claim is checked. */
  function Placeholder(id: string): Entry {
    Entry(id, AssistantEntry, "", None, true)
  }

  /** `handleSearch`, up to the wait: a blank query, or one made while a
      search is running, changes nothing; otherwise the claim, stamped with
      the first reading, and a placeholder, stamped one past the second, are
      appended and the page is marked busy. The two ids differ exactly when
      the second reading is not one behind the first, so always under a
      clock that does not run backwards. */
  function StartSearch(v: ChatView, query: string, first: nat, second: nat): (r: ChatView)
    ensures IsBlank(query) || v.isLoading ==> r == v
    ensures !IsBlank(query) && !v.isLoading ==>
      && r.isLoading
      && |r.messages| == |v.messages| + 2
      && r.messages[..|v.messages|] == v.messages
      && r.messages[|v.messages|] == Asked(Show(first), query)
      && r.messages[|v.messages| + 1] == Placeholder(Show(second + 1))
      && (r.messages[|v.messages|].id != r.messages[|v.messages| + 1].id <==> first != second + 1)
    ensures Consistent(v) ==> Consistent(r)
  {
    if |Trim(query)| == 0 || v.isLoading then v
    else
      var added := [Asked(Show(first), query), Placeholder(Show(second + 1))];
      LoadingCountAppend(v.messages, added);
      ShowInjective(first, second + 1);
      ChatView(v.messages + added, true)
  }

  /** Every placeholder of `msgs` turned into an answered entry carrying
      `result`; other entries as they were. */
  function Resolve(msgs: seq<Entry>, result: Verification): (r: seq<Entry>)
    ensures |r| == |msgs|
    ensures forall i | 0 <= i < |msgs| :: !r[i].isLoading
    ensures forall i | 0 <= i < |msgs| && !msgs[i].isLoading :: r[i] == msgs[i]
    ensures forall i | 0 <= i < |msgs| && msgs[i].isLoading ::
      r[i] == msgs[i].(isLoading := false, result := Some(result))
  {
    if |msgs| == 0 then []
    else
      var last := msgs[|msgs| - 1];
      var done := if last.isLoading then last.(isLoading := false, result := Some(result)) else last;
      Resolve(msgs[..|msgs| - 1], result) + [done]
  }

  /** `handleSearch`, after the wait: every placeholder is replaced by the
      result, nothing else moves, and the page is idle again. */
  function CompleteSearch(v: ChatView, result: Verification): (r: ChatView)
    ensures !r.isLoading && Consistent(r)
    ensures |r.messages| == |v.messages|
    ensures forall i | 0 <= i < |v.messages| :: r.messages[i].id == v.messages[i].id && r.messages[i].content == v.messages[i].content
    ensures forall i | 0 <= i < |v.messages| ::
      r.messages[i].result == if v.messages[i].isLoading then Some(result) else v.messages[i].result
  {
    ChatView(Resolve(v.messages, result), false)
  }

  /** `handleSelectHistoryResult`: the past claim and its answer are appended
      at once, with no placeholder, stamped with the first reading and one
      past the second; the busy flag is left as it was. */
  function SelectHistoryResult(v: ChatView, result: Verification, first: nat, second: nat): (r: ChatView)
    ensures r.isLoading == v.isLoading
    ensures |r.messages| == |v.messages| + 2
    ensures r.messages[..|v.messages|] == v.messages
    ensures r.messages[|v.messages|..] == [
      Asked(Show(first), result.claim),
      Entry(Show(second + 1), AssistantEntry, "", Some(result), false)]
    ensures r.messages[|v.messages|].id != r.messages[|v.messages| + 1].id <==> first != second + 1
    ensures Consistent(v) ==> Consistent(r)
  {
    var added := [Asked(Show(first), result.claim), Entry(Show(second + 1), AssistantEntry, "", Some(result), false)];
    LoadingCountAppend(v.messages, added);
    ShowInjective(first, second + 1);
    ChatView(v.messages + added, v.isLoading)
  }

  /** `handleSubmit`: the input, trimmed, starts a search when it is not
      blank; a blank input does nothing. The claim recorded is the trimmed
      text. */
  function Submit(v: ChatView, input: string, first: nat, second: nat): (r: ChatView)
    ensures IsBlank(input) || v.isLoading ==> r == v
    ensures !IsBlank(input) && !v.isLoading ==>
      && r.isLoading
      && |r.messages| == |v.messages| + 2
      && r.messages[|v.messages|].content == Trim(input)
      && !IsBlank(r.messages[|v.messages|].content)
    ensures Consistent(v) ==> Consistent(r)
  {
    var query := Trim(input);
    if |query| == 0 then v
    else
      TrimIdempotent(input);
      StartSearch(v, query, first, second)
  }

  /** A search on an idle page, run to completion: the page ends idle, with
      the claim followed by its answer appended and every earlier entry
      unchanged. */
  lemma SearchRoundTrip(v: ChatView, query: string, first: nat, second: nat, result: Verification)
    requires Consistent(v) && !v.isLoading && !IsBlank(query)
    ensures CompleteSearch(StartSearch(v, query, first, second), result) == ChatView(
      v.messages + [
        Asked(Show(first), query),
        Entry(Show(second + 1), AssistantEntry, "", Some(result), false)],
      false)
  {
    var started := StartSearch(v, query, first, second);
    var done := CompleteSearch(started, result);
    var expected := v.messages + [
      Asked(Show(first), query),
      Entry(Show(second + 1), AssistantEntry, "", Some(result), false)];
    assert |done.messages| == |expected|;
    forall i | 0 <= i < |expected| ensures done.messages[i] == expected[i] {
      if i < |v.messages| {
        assert started.messages[i] == v.messages[i];
        assert !v.messages[i].isLoading;
      }
    }
  }

  /** Counting placeholders distributes over concatenation. */
  lemma {:induction false} LoadingCountAppend(a: seq<Entry>, b: seq<Entry>)
    ensures LoadingCount(a + b) == LoadingCount(a) + LoadingCount(b)
    decreases |b|
  {
    if |b| > 0 {
      var p := b[..|b| - 1];
      assert (a + b)[..|a + b| - 1] == a + p;
      assert (a + b)[|a + b| - 1] == b[|b| - 1];
      LoadingCountAppend(a, p);
    } else {
      assert a + b == a;
    }
  }
}

=== FILE: database.dfy ===
/** The relational datastore behind the chat service, reduced to the
    constraints and trigger its schema declares (backend/utils/database.ts):
    two tables, `chat_sessions` and `chat_messages`, a `NOT NULL DEFAULT 'New
    Chat'` title of at most 255 characters, a role of at most 20 and a role CHECK, a foreign key from
    messages to sessions with `ON DELETE CASCADE`, and an `AFTER INSERT`
    trigger on messages that sets the owning session's `updated_at := NOW()`.

    Every round trip takes `up`: when false the store answers with an error
    and changes nothing. Keys are UUIDs, written here in their canonical
    lower-case spelling and compared as exact strings; an id that is not a
    UUID at all is rejected by the store, which is the case `up` false.
    Every insert takes the UUID `gen_random_uuid()` produced for it. */
module Database {
  import opened Results
  import opened ChatTypes

  /** Column default of `chat_sessions.title`. */
  const DefaultTitle: string := "New Chat"

  /** `title VARCHAR(255)`. */
  const TitleLimit: nat := 255

  /** `role VARCHAR(20)`. */
  const RoleLimit: nat := 20

  /** The two tables and the clock `NOW()` reads. `messages` lists rows in
      insertion order. */
  datatype Store = Store(sessions: map<Id, Session>, messages: seq<Message>, clock: Timestamp)

  /** Why a statement failed. */
  datatype DbError =
    | Unavailable          // the round trip itself failed
    | UniqueViolation      // the generated primary key is already taken
    | ForeignKeyViolation  // `session_id` names no session
    | CheckViolation       // role outside ('user', 'assistant')
    | ValueTooLong         // a VARCHAR bound exceeded
    | Untranslatable       // a NUL character in a text value
    | NoRows               // `.single()` found no row

  /** Text a `text` or `varchar` column can hold: every character but NUL
      (U+0000), which Postgres refuses as untranslatable. */
  predicate Storable(s: string) {
    forall k | 0 <= k < |s| :: s[k] != '\0'
  }

  /** Text joined from two pieces is storable exactly when both pieces are. */
  lemma StorableConcat(a: string, b: string)
    ensures Storable(a + b) <==> Storable(a) && Storable(b)
  {
    if Storable(a + b) {
      assert forall k | 0 <= k < |a| :: a[k] == (a + b)[k];
      assert forall k | 0 <= k < |b| :: b[k] == (a + b)[|a| + k];
    }
  }

  /** What a `VARCHAR(limit)` column stores for `t`: `t` itself when it
      fits; `t` cut to `limit` characters when everything past the bound is
      spaces (the SQL rule for an explicit-length character string); None,
      a "value too long" error, when a non-space lies past the bound. */
  function Fit(t: string, limit: nat): (r: Option<string>)
    ensures r.Some? <==> |t| <= limit || forall k | limit <= k < |t| :: t[k] == ' '
    ensures r.Some? ==> |r.value| == (if |t| <= limit then |t| else limit)
    ensures r.Some? ==> r.value == t[..|r.value|]
  {
    if |t| <= limit then Some(t)
    else if forall k | limit <= k < |t| :: t[k] == ' ' then Some(t[..limit])
    else None
  }

  /** A value that fits is stored unchanged, and a stored value is stored
      unchanged again. */
  lemma FitStable(t: string, limit: nat)
    ensures |t| <= limit ==> Fit(t, limit) == Some(t)
    ensures Fit(t, limit).Some? ==> Fit(Fit(t, limit).value, limit) == Fit(t, limit)
  {
  }

  /** Trailing spaces never make a fitting value fail: `t` padded with any
      number of spaces is stored, starting with `t`. */
  lemma FitPadding(t: string, pad: string, limit: nat)
    requires |t| <= limit
    requires forall k | 0 <= k < |pad| :: pad[k] == ' '
    ensures Fit(t + pad, limit).Some?
    ensures Fit(t + pad, limit).value[..|t|] == t
  {
    var s := t + pad;
    assert forall k | limit <= k < |s| :: s[k] == pad[k - |t|];
  }

  /** A freshly created, empty database whose clock reads `start`. */
  function Empty(start: Timestamp): (st: Store)
    ensures Valid(st)
  {
    Store(map[], [], start)
  }

  /** `dt` units of time pass; nothing else changes. */
  function Elapse(st: Store, dt: nat): (r: Store)
    ensures r.clock >= st.clock
    ensures r.sessions == st.sessions && r.messages == st.messages
    ensures Valid(st) ==> Valid(r)
  {
    st.(clock := st.clock + dt)
  }

  /** The last element of a non-empty sequence. */
  function Last<T>(s: seq<T>): T
    requires |s| > 0
  {
    s[|s| - 1]
  }

  /** The time the trigger last stamped on session `id`, created at `since`:
      the creation time of its last message in `msgs`, or `since` when it
      owns none. */
  function LastActivity(id: Id, since: Timestamp, msgs: seq<Message>): Timestamp
  {
    if |msgs| == 0 then since
    else if Last(msgs).session_id == id then Last(msgs).created_at
    else LastActivity(id, since, msgs[..|msgs| - 1])
  }

  /** Messages listed in non-decreasing creation time. */
  ghost predicate Chronological(msgs: seq<Message>) {
    forall i, j | 0 <= i < j < |msgs| :: msgs[i].created_at <= msgs[j].created_at
  }

  /** No two messages share a primary key. */
  ghost predicate DistinctIds(msgs: seq<Message>) {
    forall i, j | 0 <= i < j < |msgs| :: msgs[i].id != msgs[j].id
  }

  /** The primary keys of `msgs`. */
  function MessageIds(msgs: seq<Message>): set<Id> {
    set m | m in msgs :: m.id
  }

  /** Appending a row adds exactly its key. */
  lemma MessageIdsAppend(msgs: seq<Message>, m: Message)
    ensures MessageIds(msgs + [m]) == MessageIds(msgs) + {m.id}
  {
    assert forall x | x in msgs + [m] :: x in msgs || x == m;
  }

  /** Everything the schema and the trigger guarantee about stored rows. */
  ghost predicate Valid(st: Store) {
    // primary key of chat_sessions and its VARCHAR bound; timestamps from NOW()
    && (forall id | id in st.sessions ::
          && st.sessions[id].id == id
          && |st.sessions[id].title| <= TitleLimit
          && st.sessions[id].created_at <= st.sessions[id].updated_at <= st.clock)
    // REFERENCES chat_sessions(id) ON DELETE CASCADE: no orphan messages
    && (forall m | m in st.messages ::
          && m.session_id in st.sessions
          && st.sessions[m.session_id].created_at <= m.created_at <= st.clock)
    // rows appended under a monotone clock, each with its own key
    && Chronological(st.messages)
    && DistinctIds(st.messages)
    // AFTER INSERT trigger: updated_at is the last insertion time
    && (forall id | id in st.sessions ::
          st.sessions[id].updated_at == LastActivity(id, st.sessions[id].created_at, st.messages))
  }

  /** The messages of `msgs` satisfying `keep`, in the order they came. */
  function Where(msgs: seq<Message>, keep: Message -> bool): (r: seq<Message>)
    ensures |r| <= |msgs|
    ensures forall m :: m in r <==> m in msgs && keep(m)
    ensures Chronological(msgs) ==> Chronological(r)
    ensures DistinctIds(msgs) ==> DistinctIds(r)
  {
    if |msgs| == 0 then []
    else
      var p := msgs[..|msgs| - 1];
      var x := Last(msgs);
      assert msgs == p + [x];
      var q := Where(p, keep);
      if keep(x) then
        WhereAppend(p, x, q);
        q + [x]
      else q
  }

  /** Appending a message that comes after, and differs in key from, every
      message of `p` keeps a filtered prefix ordered and keyed apart. */
  lemma WhereAppend(p: seq<Message>, x: Message, q: seq<Message>)
    requires forall m :: m in q ==> m in p
    requires Chronological(p + [x]) ==> Chronological(q)
    requires DistinctIds(p + [x]) ==> DistinctIds(q)
    ensures Chronological(p + [x]) ==> Chronological(q + [x])
    ensures DistinctIds(p + [x]) ==> DistinctIds(q + [x])
  {
    var s := p + [x];
    var r := q + [x];
    if Chronological(s) {
      forall i, j | 0 <= i < j < |r| ensures r[i].created_at <= r[j].created_at {
        if j < |q| {
          assert r[i] == q[i] && r[j] == q[j];
        } else {
          assert q[i] in q;
          var k :| 0 <= k < |p| && p[k] == q[i];
          assert s[k] == q[i] && s[|p|] == x;
        }
      }
    }
    if DistinctIds(s) {
      forall i, j | 0 <= i < j < |r| ensures r[i].id != r[j].id {
        if j < |q| {
          assert r[i] == q[i] && r[j] == q[j];
        } else {
          assert q[i] in q;
          var k :| 0 <= k < |p| && p[k] == q[i];
          assert s[k] == q[i] && s[|p|] == x;
        }
      }
    }
  }

  /** The messages of session `id`. */
  function OwnedBy(msgs: seq<Message>, id: Id): seq<Message> {
    Where(msgs, (m: Message) => m.session_id == id)
  }

  /** The messages the cascade leaves when the sessions in `doomed` go. */
  function Survivors(msgs: seq<Message>, doomed: set<Id>): seq<Message> {
    Where(msgs, (m: Message) => m.session_id !in doomed)
  }

  /** When no message belongs to a doomed session, the cascade keeps them all. */
  lemma {:induction false} SurvivorsOfNone(msgs: seq<Message>, doomed: set<Id>)
    requires forall m | m in msgs :: m.session_id !in doomed
    ensures Survivors(msgs, doomed) == msgs
  {
    if |msgs| > 0 {
      var p := msgs[..|msgs| - 1];
      assert msgs == p + [Last(msgs)];
      assert forall m | m in p :: m in msgs;
      SurvivorsOfNone(p, doomed);
    }
  }

  /** Appending a message extends exactly its owner's conversation. */
  lemma OwnedByAppend(msgs: seq<Message>, m: Message, id: Id)
    ensures OwnedBy(msgs + [m], id) == if m.session_id == id then OwnedBy(msgs, id) + [m] else OwnedBy(msgs, id)
  {
    assert (msgs + [m])[..|msgs|] == msgs;
  }

  /** A session that owns none of `msgs` has an empty conversation. */
  lemma {:induction false} OwnedByNone(msgs: seq<Message>, id: Id)
    requires forall m | m in msgs :: m.session_id != id
    ensures OwnedBy(msgs, id) == []
  {
    if |msgs| > 0 {
      var p := msgs[..|msgs| - 1];
      assert msgs == p + [Last(msgs)];
      assert forall m | m in p :: m in msgs;
      OwnedByNone(p, id);
    }
  }

  /** A session that owns none of `msgs` was last touched when created. */
  lemma {:induction false} LastActivityUnowned(id: Id, since: Timestamp, msgs: seq<Message>)
    requires forall m | m in msgs :: m.session_id != id
    ensures LastActivity(id, since, msgs) == since
  {
    if |msgs| > 0 {
      var p := msgs[..|msgs| - 1];
      assert forall m | m in p :: m in msgs;
      LastActivityUnowned(id, since, p);
    }
  }

  /** The cascade does not change when a surviving session was last touched. */
  lemma {:induction false} LastActivitySurvives(id: Id, since: Timestamp, msgs: seq<Message>, doomed: set<Id>)
    requires id !in doomed
    ensures LastActivity(id, since, Survivors(msgs, doomed)) == LastActivity(id, since, msgs)
  {
    if |msgs| > 0 {
      var p := msgs[..|msgs| - 1];
      var x := Last(msgs);
      LastActivitySurvives(id, since, p, doomed);
      var q := Survivors(p, doomed);
      assert msgs == p + [x];
      if x.session_id !in doomed {
        assert Survivors(msgs, doomed) == q + [x];
        assert (q + [x])[..|q|] == q;
      } else {
        assert Survivors(msgs, doomed) == q;
      }
    }
  }

  /** `INSERT INTO chat_sessions`: `title` None leaves the column to its
      default. Fails when the store is down, the title holds a NUL or does
      not fit its bound, or the generated key is taken; otherwise adds exactly one row,
      stamped now and titled as the column stores the title, and touches
      nothing else. */
  function InsertSession(st: Store, title: Option<string>, uuid: Id, up: bool): (r: (Store, Result<Session, DbError>))
    ensures r.1.Success? <==>
      up && Storable(title.GetOr(DefaultTitle)) && Fit(title.GetOr(DefaultTitle), TitleLimit).Some? && uuid !in st.sessions
    ensures r.1.Failure? ==> r.0 == st
    ensures r.1.Success? ==>
      && r.1.value == Session(uuid, Fit(title.GetOr(DefaultTitle), TitleLimit).value, st.clock, st.clock)
      && r.0 == st.(sessions := st.sessions[uuid := r.1.value])
    ensures Valid(st) ==> Valid(r.0)
  {
    var stored := Fit(title.GetOr(DefaultTitle), TitleLimit);
    if !up then (st, Failure(Unavailable))
    else if !Storable(title.GetOr(DefaultTitle)) then (st, Failure(Untranslatable))
    else if stored.None? then (st, Failure(ValueTooLong))
    else if uuid in st.sessions then (st, Failure(UniqueViolation))
    else
      var s := Session(uuid, stored.value, st.clock, st.clock);
      var st' := st.(sessions := st.sessions[uuid := s]);
      InsertSessionValid(st, s);
      (st', Success(s))
  }

  lemma InsertSessionValid(st: Store, s: Session)
    requires s.id !in st.sessions && |s.title| <= TitleLimit
    requires s.created_at == st.clock && s.updated_at == st.clock
    ensures Valid(st) ==> Valid(st.(sessions := st.sessions[s.id := s]))
  {
    if Valid(st) {
      var st' := st.(sessions := st.sessions[s.id := s]);
      assert forall m | m in st.messages :: m.session_id != s.id;
      LastActivityUnowned(s.id, s.created_at, st.messages);
    }
  }

  /** `INSERT INTO chat_messages` followed by its AFTER INSERT trigger.
      Fails, changing nothing, when the store is down, the role or the
      content holds a NUL, the role does not fit
      its bound or, as stored, lies outside ('user', 'assistant'), the generated key is taken or the
      session does not exist. Otherwise appends exactly one message stamped
      now and sets the owning session's `updated_at` to now. */
  function InsertMessage(st: Store, sessionId: Id, role: string, content: string, uuid: Id, up: bool): (r: (Store, Result<Message, DbError>))
    ensures r.1.Success? <==>
      && up && Storable(content) && |role| <= RoleLimit && ParseRole(role).Some?
      && uuid !in MessageIds(st.messages) && sessionId in st.sessions
    ensures r.1.Failure? ==> r.0 == st
    ensures r.1.Success? ==>
      && r.1.value == Message(uuid, sessionId, ParseRole(role).value, content, st.clock)
      && r.0.messages == st.messages + [r.1.value]
      && r.0.sessions == st.sessions[sessionId := st.sessions[sessionId].(updated_at := st.clock)]
      && r.0.clock == st.clock
    ensures Valid(st) ==> Valid(r.0)
  {
    if !up then (st, Failure(Unavailable))
    else if !Storable(role) || !Storable(content) then (st, Failure(Untranslatable))
    else if Fit(role, RoleLimit).None? then (st, Failure(ValueTooLong))
    else if ParseRole(Fit(role, RoleLimit).value).None? then (st, Failure(CheckViolation))
    else if uuid in MessageIds(st.messages) then (st, Failure(UniqueViolation))
    else if sessionId !in st.sessions then (st, Failure(ForeignKeyViolation))
    else
      // a role clipped to 20 characters is never 'user' or 'assistant'
      assert Fit(role, RoleLimit).value == role;
      var m := Message(uuid, sessionId, ParseRole(role).value, content, st.clock);
      var s := st.sessions[sessionId].(updated_at := st.clock);
      var st' := Store(st.sessions[sessionId := s], st.messages + [m], st.clock);
      InsertMessageValid(st, m);
      (st', Success(m))
  }

  lemma InsertMessageValid(st: Store, m: Message)
    requires m.session_id in st.sessions && m.created_at == st.clock
    requires m.id !in MessageIds(st.messages)
    ensures Valid(st) ==> Valid(Store(
      st.sessions[m.session_id := st.sessions[m.session_id].(updated_at := st.clock)],
      st.messages + [m], st.clock))
  {
    if Valid(st) {
      var sessions := st.sessions[m.session_id := st.sessions[m.session_id].(updated_at := st.clock)];
      var msgs := st.messages + [m];
      AppendKeepsOrder(st.messages, m, st.clock);
      forall id | id in sessions
        ensures sessions[id].updated_at == LastActivity(id, sessions[id].created_at, msgs)
      {
        LastActivityAppend(id, sessions[id].created_at, st.messages, m);
      }
      assert forall x | x in msgs :: x in st.messages || x == m;
    }
  }

  /** The trigger's record after one more insertion: the new message's time
      for its own session, unchanged for every other. */
  lemma LastActivityAppend(id: Id, since: Timestamp, msgs: seq<Message>, m: Message)
    ensures LastActivity(id, since, msgs + [m]) == if m.session_id == id then m.created_at else LastActivity(id, since, msgs)
  {
    assert (msgs + [m])[..|msgs|] == msgs;
  }

  /** Appending a message stamped no earlier than any other, under a fresh
      key, keeps the list chronological and its keys distinct. */
  lemma AppendKeepsOrder(msgs: seq<Message>, m: Message, clock: Timestamp)
    requires Chronological(msgs) && DistinctIds(msgs)
    requires forall x | x in msgs :: x.created_at <= clock
    requires m.created_at == clock && m.id !in MessageIds(msgs)
    ensures Chronological(msgs + [m]) && DistinctIds(msgs + [m])
  {
    var all := msgs + [m];
    forall i, j | 0 <= i < j < |all| ensures all[i].created_at <= all[j].created_at && all[i].id != all[j].id {
      if j == |msgs| {
        assert all[i] in msgs;
      } else {
        assert all[i] == msgs[i] && all[j] == msgs[j];
      }
    }
  }

  /** `SELECT * FROM chat_sessions WHERE id = $1` with `.single()`. */
  function SelectSession(st: Store, id: Id, up: bool): (r: Result<Session, DbError>)
    ensures r.Success? <==> up && id in st.sessions
    ensures r.Success? ==> r.value == st.sessions[id]
  {
    if !up then Failure(Unavailable)
    else if id !in st.sessions then Failure(NoRows)
    else Success(st.sessions[id])
  }

  /** `SELECT * FROM chat_messages WHERE session_id = $1 ORDER BY
      created_at`: the rows are kept in insertion order, which under a
      monotone clock is an ascending creation order; rows stamped alike
      come back in the order they were inserted. Zero rows is not an error. */
  function SelectMessages(st: Store, sessionId: Id, up: bool): (r: Result<seq<Message>, DbError>)
    ensures r.Success? <==> up
    ensures r.Success? ==> forall m :: m in r.value <==> m in st.messages && m.session_id == sessionId
    ensures r.Success? && Valid(st) ==> Chronological(r.value) && DistinctIds(r.value)
  {
    if !up then Failure(Unavailable) else Success(OwnedBy(st.messages, sessionId))
  }

  /** `UPDATE chat_sessions SET title = $2 WHERE id = $1` with `.single()`.
      No trigger fires on this table, so `updated_at` keeps its value. */
  function UpdateTitle(st: Store, id: Id, title: string, up: bool): (r: (Store, Result<Session, DbError>))
    ensures r.1.Success? <==> up && Storable(title) && Fit(title, TitleLimit).Some? && id in st.sessions
    ensures r.1.Failure? ==> r.0 == st
    ensures r.1.Success? ==>
      && r.1.value == st.sessions[id].(title := Fit(title, TitleLimit).value)
      && r.0 == st.(sessions := st.sessions[id := r.1.value])
    ensures Valid(st) ==> Valid(r.0)
  {
    if !up then (st, Failure(Unavailable))
    else if !Storable(title) then (st, Failure(Untranslatable))
    else if Fit(title, TitleLimit).None? then (st, Failure(ValueTooLong))
    else if id !in st.sessions then (st, Failure(NoRows))
    else
      var s := st.sessions[id].(title := Fit(title, TitleLimit).value);
      (st.(sessions := st.sessions[id := s]), Success(s))
  }

  /** `DELETE FROM chat_sessions WHERE id IN doomed`, with the cascade
      removing every message those sessions own. Sessions not named keep
      their rows, their messages and their order. */
  function DeleteSessions(st: Store, doomed: set<Id>, up: bool): (r: (Store, Result<(), DbError>))
    ensures r.1.Success? <==> up
    ensures r.1.Failure? ==> r.0 == st
    ensures r.1.Success? ==>
      && r.0.clock == st.clock
      && r.0.sessions.Keys == st.sessions.Keys - doomed
      && (forall id | id in r.0.sessions :: r.0.sessions[id] == st.sessions[id])
      && r.0.messages == Survivors(st.messages, doomed)
      && (forall m :: m in r.0.messages <==> m in st.messages && m.session_id !in doomed)
    ensures Valid(st) ==> Valid(r.0)
  {
    if !up then (st, Failure(Unavailable))
    else
      var sessions := map id | id in st.sessions && id !in doomed :: st.sessions[id];
      var st' := Store(sessions, Survivors(st.messages, doomed), st.clock);
      DeleteSessionsValid(st, doomed);
      (st', Success(()))
  }

  lemma DeleteSessionsValid(st: Store, doomed: set<Id>)
    ensures Valid(st) ==> Valid(Store(
      map id | id in st.sessions && id !in doomed :: st.sessions[id],
      Survivors(st.messages, doomed), st.clock))
  {
    if Valid(st) {
      forall id | id in st.sessions && id !in doomed
        ensures LastActivity(id, st.sessions[id].created_at, Survivors(st.messages, doomed))
             == st.sessions[id].updated_at
      {
        LastActivitySurvives(id, st.sessions[id].created_at, st.messages, doomed);
      }
    }
  }

  /** The figures `getStats` reports. */
  datatype Stats = Stats(totalSessions: nat, totalMessages: nat,
                         oldestSession: Option<Timestamp>, newestSession: Option<Timestamp>)

  /** `t` is the creation time of some session in `sessions`. */
  ghost predicate IsCreationTime(sessions: map<Id, Session>, t: Timestamp) {
    exists id :: id in sessions && sessions[id].created_at == t
  }

  /** `getStats`: row counts and the earliest and latest session creation
      times; when either fetch fails, zeros and nulls. */
  method GetStats(st: Store, sessionsUp: bool, messagesUp: bool) returns (s: Stats)
    ensures !(sessionsUp && messagesUp) ==> s == Stats(0, 0, None, None)
    ensures sessionsUp && messagesUp ==>
      && s.totalSessions == |st.sessions|
      && s.totalMessages == |st.messages|
      && (s.oldestSession.None? <==> |st.sessions| == 0)
      && (s.newestSession.None? <==> |st.sessions| == 0)
    ensures s.oldestSession.Some? ==>
      && IsCreationTime(st.sessions, s.oldestSession.value)
      && forall id | id in st.sessions :: s.oldestSession.value <= st.sessions[id].created_at
    ensures s.newestSession.Some? ==>
      && IsCreationTime(st.sessions, s.newestSession.value)
      && forall id | id in st.sessions :: st.sessions[id].created_at <= s.newestSession.value
    ensures s.oldestSession.Some? && s.newestSession.Some? ==>
      s.oldestSession.value <= s.newestSession.value
  {
    if !(sessionsUp && messagesUp) {
      return Stats(0, 0, None, None);
    }
    var rest := st.sessions.Keys;
    var oldest: Option<Timestamp> := None;
    var newest: Option<Timestamp> := None;
    while rest != {}
      invariant rest <= st.sessions.Keys
      invariant oldest.None? <==> rest == st.sessions.Keys
      invariant newest.None? <==> rest == st.sessions.Keys
      invariant oldest.Some? ==> newest.Some? && oldest.value <= newest.value
      invariant oldest.Some? ==>
        && IsCreationTime(st.sessions, oldest.value)
        && forall id | id in st.sessions && id !in rest :: oldest.value <= st.sessions[id].created_at
      invariant newest.Some? ==>
        && IsCreationTime(st.sessions, newest.value)
        && forall id | id in st.sessions && id !in rest :: st.sessions[id].created_at <= newest.value
      decreases rest
    {
      var id :| id in rest;
      var c := st.sessions[id].created_at;
      if oldest.None? || c < oldest.value {
        oldest := Some(c);
      }
      if newest.None? || newest.value < c {
        newest := Some(c);
      }
      rest := rest - {id};
    }
    assert |st.sessions| == 0 <==> st.sessions.Keys == {};
    s := Stats(|st.sessions|, |st.messages|, oldest, newest);
  }
}

=== FILE: display.dfy ===
/** The small pure helpers the dashboard and the history panel share
    (src/components/Dashboard.tsx, src/components/History.tsx): the status
    badge label, the relative-time label and the history count label. Times
    are whole milliseconds since the epoch. */
module Display {
  import opened Results
  import opened Text

  /** A verification shown in the history (`VerificationResult`). The status
      is the raw text the record carries; evidence sources are not modelled. */
  datatype Verification = Verification(id: string, claim: string, status: string, confidence: int, timestamp: int)

  /** `1000 * 60 * 60`. */
  const MsPerHour: int := 3600000

  /** Twenty-four hours in milliseconds. */
  const MsPerDay: int := 86400000

  /** `getStatusConfig(status).label`: the three settled statuses have a label
      of their own; "loading" and any other text read "Processing". */
  function StatusLabel(status: string): (r: string)
    ensures r == "True" <==> status == "verified-true"
    ensures r == "False" <==> status == "verified-false"
    ensures r == "Unverified" <==> status == "unverified"
    ensures r == "Processing" <==> status != "verified-true" && status != "verified-false" && status != "unverified"
  {
    match status
    case "verified-true" => "True"
    case "verified-false" => "False"
    case "unverified" => "Unverified"
    case _ => "Processing"
  }

  /** `formatTime` for a date `diffMs` milliseconds in the past:
      `diffHours = Math.floor(diffMs / 3600000)`, `diffDays = Math.floor(diffHours / 24)`,
      then whole days if there are any, else whole hours if there are any,
      else "Just now". A date in the future also reads "Just now". */
  function FormatTime(diffMs: int): (r: string)
    ensures r == "Just now" <==> diffMs < MsPerHour
    ensures diffMs >= MsPerDay ==> r == Show(diffMs / MsPerDay) + "d ago"
    ensures MsPerHour <= diffMs < MsPerDay ==> r == Show(diffMs / MsPerHour) + "h ago"
  {
    var hours := diffMs / MsPerHour;
    var days := hours / 24;
    DaysFromMs(diffMs);
    if days > 0 then Ago(days, 'd')
    else if hours > 0 then Ago(hours, 'h')
    else "Just now"
  }

  /** "`n`d ago" or "`n`h ago". */
  function Ago(n: nat, unit: char): (r: string)
    ensures r == Show(n) + [unit] + " ago"
    ensures r != "Just now"
  {
    var r := Show(n) + [unit] + " ago";
    assert r[|r| - 1] == 'o';
    r
  }

  /** Flooring the hours to whole days floors the milliseconds to whole days. */
  lemma DaysFromMs(ms: int)
    ensures (ms / MsPerHour) / 24 == ms / MsPerDay
  {
    var h := ms / MsPerHour;
    var d := h / 24;
    var rest := MsPerHour * (h % 24) + ms % MsPerHour;
    assert ms == MsPerDay * d + rest;
    DivisionIsUnique(ms, d, rest);
  }

  /** Whole days and a remainder below one day determine the division by a day. */
  lemma DivisionIsUnique(ms: int, q: int, rest: int)
    requires 0 <= rest < MsPerDay && ms == MsPerDay * q + rest
    ensures ms / MsPerDay == q
  {
    var q' := ms / MsPerDay;
    assert ms == MsPerDay * q' + ms % MsPerDay;
  }

  /** The label is read back by whole elapsed days: any date between `d` and
      `d + 1` days ago, for `d` at least one, reads "`d`d ago". */
  lemma DaysLabel(diffMs: int, d: nat)
    requires d > 0 && MsPerDay * d <= diffMs < MsPerDay * (d + 1)
    ensures FormatTime(diffMs) == Show(d) + "d ago"
  {
    DivisionIsUnique(diffMs, d, diffMs - MsPerDay * d);
  }

  /** Any date between `h` and `h + 1` hours ago, for `h` from 1 to 23,
      reads "`h`h ago". */
  lemma HoursLabel(diffMs: int, h: nat)
    requires 0 < h < 24 && MsPerHour * h <= diffMs < MsPerHour * (h + 1)
    ensures FormatTime(diffMs) == Show(h) + "h ago"
  {
    assert diffMs / MsPerHour == h;
  }

  /** `${n} claim${n !== 1 ? 's' : ''} verified`. */
  function CountLabel(n: nat): (r: string)
    ensures n == 1 ==> r == "1 claim verified"
    ensures n != 1 ==> r == Show(n) + " claims verified"
  {
    Show(n) + " claim" + (if n != 1 then "s" else "") + " verified"
  }

  /** The count label names the count: different history lengths give
      different labels. */
  lemma CountLabelInjective(a: nat, b: nat)
    ensures CountLabel(a) == CountLabel(b) <==> a == b
  {
    if CountLabel(a) == CountLabel(b) {
      var x := Show(a);
      var y := Show(b);
      NumeralPrefix(x, CountLabel(a)[|x|..]);
      NumeralPrefix(y, CountLabel(b)[|y|..]);
      assert CountLabel(a) == x + CountLabel(a)[|x|..];
      assert CountLabel(b) == y + CountLabel(b)[|y|..];
      assert x == CountLabel(a)[..NumeralLength(CountLabel(a))];
      assert y == CountLabel(b)[..NumeralLength(CountLabel(b))];
      ShowInjective(a, b);
    }
  }

  /** Length of the run of decimal digits at the front of `s`. */
  function NumeralLength(s: string): (k: nat)
    ensures k <= |s|
    ensures forall i | 0 <= i < k :: '0' <= s[i] <= '9'
    ensures k < |s| ==> !('0' <= s[k] <= '9')
  {
    if |s| > 0 && '0' <= s[0] <= '9' then 1 + NumeralLength(s[1..]) else 0
  }

  /** A numeral followed by text that starts with a non-digit: the digit run
      at the front is exactly the numeral. */
  lemma {:induction false} NumeralPrefix(n: string, tail: string)
    requires forall i | 0 <= i < |n| :: '0' <= n[i] <= '9'
    requires |tail| > 0 && tail[0] == ' '
    ensures NumeralLength(n + tail) == |n|
    decreases |n|
  {
    if |n| > 0 {
      assert (n + tail)[1..] == n[1..] + tail;
      NumeralPrefix(n[1..], tail);
    }
  }
}

=== FILE: history.dfy ===
/** What the history panel (src/components/History.tsx) shows for a list of
    past verifications: an empty state when there are none, otherwise a
    count label and one item per verification, in order, each with its
    status label, its relative time and whether it is the selected one. */
module History {
  import opened Results
  import opened Text
  import opened Display

  /** One rendered history item. */
  datatype Item = Item(id: string, statusLabel: string, time: string, claim: string, confidence: int, selected: bool)

  /** The panel: the empty state, or the count label and the items. */
  datatype Panel = EmptyState | Listing(countLabel: string, items: seq<Item>)

  /** `selectedResultId === result.id`; an absent selection matches nothing. */
  predicate IsSelected(selected: Option<string>, id: string) {
    selected == Some(id)
  }

  /** The item rendered for one verification at time `nowMs`. */
  function RenderItem(v: Verification, selected: Option<string>, nowMs: int): (r: Item)
    ensures r.id == v.id && r.claim == v.claim && r.confidence == v.confidence
    ensures r.statusLabel == StatusLabel(v.status)
    ensures r.time == FormatTime(nowMs - v.timestamp)
    ensures r.selected <==> selected.Some? && selected.value == v.id
  {
    Item(v.id, StatusLabel(v.status), FormatTime(nowMs - v.timestamp), v.claim, v.confidence, IsSelected(selected, v.id))
  }

  /** `History`: the empty state exactly when there is no history; otherwise
      "`n` claim(s) verified" and the items in history order. */
  function Render(history: seq<Verification>, selected: Option<string>, nowMs: int): (r: Panel)
    ensures r.EmptyState? <==> |history| == 0
    ensures r.Listing? ==>
      && r.countLabel == CountLabel(|history|)
      && |r.items| == |history|
      && (forall i | 0 <= i < |history| :: r.items[i] == RenderItem(history[i], selected, nowMs))
  {
    if |history| == 0 then EmptyState
    else Listing(CountLabel(|history|), seq(|history|, i requires 0 <= i < |history| => RenderItem(history[i], selected, nowMs)))
  }

  /** With distinct ids, at most one item is highlighted, and it is the one
      whose id is selected; with no selection, none is. */
  lemma AtMostOneSelected(history: seq<Verification>, selected: Option<string>, nowMs: int)
    requires forall i, j | 0 <= i < j < |history| :: history[i].id != history[j].id
    requires Render(history, selected, nowMs).Listing?
    ensures var items := Render(history, selected, nowMs).items;
      forall i, j | 0 <= i < |items| && 0 <= j < |items| && items[i].selected && items[j].selected :: i == j
    ensures selected.None? ==> forall it | it in Render(history, selected, nowMs).items :: !it.selected
  {
    var items := Render(history, selected, nowMs).items;
    forall i, j | 0 <= i < |items| && 0 <= j < |items| && items[i].selected && items[j].selected
      ensures i == j
    {
      assert history[i].id == selected.value == history[j].id;
    }
  }

  /** A verification stamped less than an hour before `nowMs`, or stamped in
      the future, is shown as "Just now". */
  lemma RecentReadsJustNow(v: Verification, selected: Option<string>, nowMs: int)
    requires nowMs - v.timestamp < MsPerHour
    ensures RenderItem(v, selected, nowMs).time == "Just now"
  {
  }
}

=== FILE: middlewares.dfy ===
/** The two guards in front of the Next.js chat route: the request-body
    check (src/app/api/middlewares/validation.ts) and the bearer-token check
    (src/app/api/middlewares/security.ts). A thrown error is a `Reject`
    carrying its message; returning normally is `Pass`. */
module Middlewares {
  import opened Results
  import opened Text

  /** A parsed JSON request body. Numbers are whole numbers here. */
  datatype Json =
    | JNull
    | JBool(b: bool)
    | JNumber(n: int)
    | JString(s: string)
    | JArray(items: seq<Json>)
    | JObject(fields: map<string, Json>)

  const InvalidBody := "Invalid request body"
  const MessageRequired := "Field 'message' is required"
  const Unauthorized := "Unauthorized"

  /** `typeof body === "object"` for a truthy body: an array or an object
      (`null` is falsy and never gets this far). */
  predicate IsObjectLike(body: Json) {
    body.JArray? || body.JObject?
  }

  /** The `message` property of an object-like body, when it has one. Arrays
      have no such property. */
  function MessageField(body: Json): (r: Option<Json>)
    ensures r.Some? <==> body.JObject? && "message" in body.fields
    ensures r.Some? ==> r.value == body.fields["message"]
  {
    if body.JObject? && "message" in body.fields then Some(body.fields["message"]) else None
  }

  /** `validateChatInput`: rejects anything but an array or object with
      "Invalid request body"; otherwise rejects with "Field 'message' is
      required" unless `message` is a string that is not all whitespace. */
  function ValidateChatInput(body: Json): (r: Verdict)
    ensures r.Reject? ==> r.reason == InvalidBody || r.reason == MessageRequired
    ensures r == Reject(InvalidBody) <==> !body.JArray? && !body.JObject?
    ensures r.Pass? <==>
      && body.JObject? && "message" in body.fields
      && body.fields["message"].JString? && !IsBlank(body.fields["message"].s)
  {
    if !IsObjectLike(body) then Reject(InvalidBody)
    else
      match MessageField(body)
      case Some(JString(m)) =>
        if |Trim(m)| == 0 then Reject(MessageRequired) else Pass
      case _ => Reject(MessageRequired)
  }

  /** The validator looks at `message` alone: whatever `session_id` (or any
      other field but `message`) holds, the verdict is the same. */
  lemma OnlyMessageInspected(fields: map<string, Json>, key: string, v: Json)
    requires key != "message"
    ensures ValidateChatInput(JObject(fields[key := v])) == ValidateChatInput(JObject(fields))
  {
    assert MessageField(JObject(fields[key := v])) == MessageField(JObject(fields));
  }

  /** Surrounding whitespace does not change the verdict on a message. */
  lemma PaddingIrrelevant(fields: map<string, Json>, m: string, pad: string)
    requires IsBlank(pad)
    ensures ValidateChatInput(JObject(fields["message" := JString(pad + m + pad)]))
         == ValidateChatInput(JObject(fields["message" := JString(m)]))
  {
    BlankPieces(pad, m, pad);
  }

  /** `applySecurity`: with no API key configured (absent or empty) every
      request passes; otherwise a request passes exactly when its
      authorization header reads "Bearer " followed by the key. A missing
      header counts as the empty string. */
  function ApplySecurity(authorization: Option<string>, apiKey: Option<string>): (r: Verdict)
    ensures !Given(apiKey) ==> r.Pass?
    ensures Given(apiKey) ==> (r.Pass? <==> authorization == Some("Bearer " + apiKey.value))
    ensures Given(apiKey) && authorization.None? ==> r.Reject?
    ensures r.Reject? ==> r.reason == Unauthorized
  {
    var auth := if Given(authorization) then authorization.value else "";
    if !Given(apiKey) then Pass
    else if auth != "Bearer " + apiKey.value then Reject(Unauthorized)
    else Pass
  }
}

=== FILE: next_chat.dfy ===
/** `handleChatRequest` (src/app/api/models/chat.service.ts): the Next.js
    chat path writes straight to the same tables as the service. It opens a
    session when the request names none, stores the user's message, then
    stores the echo reply. Each step is its own round trip; a failure ends
    the request with an error but leaves earlier rows in place. */
module NextChat {
  import opened Results
  import opened ChatTypes
  import opened Database
  import opened Text

  /** `EnhancedChatRequest`: the message and, optionally, the session it
      continues; a falsy `session_id` is `None`. */
  datatype ChatRequest = ChatRequest(message: string, session_id: Option<string>)

  /** `ChatResponse` as this path fills it in. */
  datatype ChatResponse = ChatResponse(reply: string, saved: bool, id: Option<Id>, session_id: Id)

  /** Which round trip failed. */
  datatype Step = OpenSessionStep | UserMessageStep | ReplyStep

  /** The error the request ends with: the failing step and the store's error. */
  datatype Fault = Fault(step: Step, error: DbError)

  /** The reply the echo bot gives to `message`. */
  function Echo(message: string): (r: string)
    ensures |r| == |message| + 6 && r[6..] == message
    ensures Storable(r) <==> Storable(message)
  {
    StorableConcat("Echo: ", message);
    "Echo: " + message
  }

  /** The session a request writes to: the one it names or, when it names
      none (absent or empty), a new one titled `autoTitle` under `uuid`. */
  function OpenSession(st: Store, given: Option<string>, autoTitle: string, uuid: Id, up: bool): (r: (Store, Result<Id, DbError>))
    ensures Given(given) ==> r == (st, Success(given.value))
    ensures !Given(given) ==> (r.1.Success? <==> up && Storable(autoTitle) && Fit(autoTitle, TitleLimit).Some? && uuid !in st.sessions)
    ensures r.1.Failure? ==> r.0 == st
    ensures !Given(given) && r.1.Success? ==>
      && r.1.value == uuid
      && r.0 == st.(sessions := st.sessions[uuid := Session(uuid, Fit(autoTitle, TitleLimit).value, st.clock, st.clock)])
    ensures Valid(st) ==> Valid(r.0)
  {
    if Given(given) then (st, Success(given.value))
    else
      var (st', created) := InsertSession(st, Some(autoTitle), uuid, up);
      match created
      case Failure(e) => (st', Failure(e))
      case Success(s) => (st', Success(s.id))
  }

  /** `handleChatRequest`. On success the conversation has gained exactly two
      messages, the user's and then the assistant's echo, both stamped now,
      and the response names the session and the reply. On failure the
      response is the failing step; rows written before it stay. */
  function HandleChatRequest(st: Store, input: ChatRequest, autoTitle: string,
                             sessionUuid: Id, userUuid: Id, replyUuid: Id,
                             sessionUp: bool, userUp: bool, replyUp: bool): (r: (Store, Result<ChatResponse, Fault>))
    ensures r.1.Success? <==>
      && (if Given(input.session_id) then input.session_id.value in st.sessions
          else sessionUp && Storable(autoTitle) && Fit(autoTitle, TitleLimit).Some? && sessionUuid !in st.sessions)
      && userUp && replyUp && Storable(input.message)
      && userUuid !in MessageIds(st.messages) && replyUuid !in MessageIds(st.messages)
      && userUuid != replyUuid
    ensures r.1.Success? ==>
      var sid := r.1.value.session_id;
      && (Given(input.session_id) ==> sid == input.session_id.value && r.0.sessions.Keys == st.sessions.Keys)
      && (!Given(input.session_id) ==>
            && sid == sessionUuid && sid !in st.sessions
            && r.0.sessions.Keys == st.sessions.Keys + {sid}
            && r.0.sessions[sid].title == Fit(autoTitle, TitleLimit).value
            && r.0.sessions[sid].created_at == st.clock)
      && r.0.messages == st.messages + [
           Message(userUuid, sid, User, input.message, st.clock),
           Message(replyUuid, sid, Assistant, Echo(input.message), st.clock)]
      && r.0.sessions[sid].updated_at == st.clock
      && r.1.value.reply == Echo(input.message)
      && r.1.value.saved
      && r.1.value.id == Some(replyUuid)
    ensures Valid(st) ==> Valid(r.0)
  {
    var (st1, chosen) := OpenSession(st, input.session_id, autoTitle, sessionUuid, sessionUp);
    match chosen
    case Failure(e) => (st1, Failure(Fault(OpenSessionStep, e)))
    case Success(sid) => Converse(st1, sid, input.message, userUuid, replyUuid, userUp, replyUp)
  }

  /** The two inserts of `handleChatRequest` into session `sid`: the user's
      message, then the echo. Succeeds exactly when both inserts can; a
      failed echo leaves the user's message stored. */
  function Converse(st: Store, sid: Id, message: string, userUuid: Id, replyUuid: Id,
                    userUp: bool, replyUp: bool): (r: (Store, Result<ChatResponse, Fault>))
    ensures r.1.Success? <==>
      && userUp && replyUp && sid in st.sessions && Storable(message)
      && userUuid !in MessageIds(st.messages) && replyUuid !in MessageIds(st.messages)
      && userUuid != replyUuid
    ensures r.1.Success? ==>
      && r.0.messages == st.messages + [
           Message(userUuid, sid, User, message, st.clock),
           Message(replyUuid, sid, Assistant, Echo(message), st.clock)]
      && r.0.sessions == st.sessions[sid := st.sessions[sid].(updated_at := st.clock)]
      && r.1.value == ChatResponse(Echo(message), true, Some(replyUuid), sid)
    ensures r.1.Failure? ==> r.1.error.step != OpenSessionStep
    ensures r.1.Failure? && r.1.error.step == UserMessageStep ==> r.0 == st
    ensures r.1.Failure? && r.1.error.step == ReplyStep ==>
      && r.0.messages == st.messages + [Message(userUuid, sid, User, message, st.clock)]
      && r.0.sessions.Keys == st.sessions.Keys
    ensures Valid(st) ==> Valid(r.0)
  {
    var (st2, asked) := InsertMessage(st, sid, "user", message, userUuid, userUp);
    match asked
    case Failure(e) => (st2, Failure(Fault(UserMessageStep, e)))
    case Success(u) =>
      MessageIdsAppend(st.messages, u);
      var (st3, answered) := InsertMessage(st2, sid, "assistant", Echo(message), replyUuid, replyUp);
      match answered
      case Failure(e) => (st3, Failure(Fault(ReplyStep, e)))
      case Success(b) =>
        assert st3.messages == st.messages + [u, b];
        (st3, Success(ChatResponse(Echo(message), true, Some(b.id), sid)))
  }

  /** Reading the session back after a successful request gives what it held
      before, then the user's message, then the echo; a newly opened session
      held nothing before. */
  lemma ConversationGainsTwoTurns(st: Store, input: ChatRequest, autoTitle: string,
                                  sessionUuid: Id, userUuid: Id, replyUuid: Id,
                                  r: (Store, Result<ChatResponse, Fault>))
    requires Valid(st)
    requires r == HandleChatRequest(st, input, autoTitle, sessionUuid, userUuid, replyUuid, true, true, true)
    requires r.1.Success?
    ensures OwnedBy(r.0.messages, r.1.value.session_id) == OwnedBy(st.messages, r.1.value.session_id) + [
              Message(userUuid, r.1.value.session_id, User, input.message, st.clock),
              Message(replyUuid, r.1.value.session_id, Assistant, Echo(input.message), st.clock)]
    ensures !Given(input.session_id) ==> OwnedBy(st.messages, r.1.value.session_id) == []
  {
    var sid := r.1.value.session_id;
    var u := Message(userUuid, sid, User, input.message, st.clock);
    var b := Message(replyUuid, sid, Assistant, Echo(input.message), st.clock);
    OwnedByPair(st.messages, u, b, sid);
    if !Given(input.session_id) {
      assert forall m | m in st.messages :: m.session_id != sid;
      OwnedByNone(st.messages, sid);
    }
  }

  /** Two appended messages of one session extend its conversation by both, in order. */
  lemma OwnedByPair(msgs: seq<Message>, u: Message, b: Message, sid: Id)
    requires u.session_id == sid && b.session_id == sid
    ensures OwnedBy(msgs + [u, b], sid) == OwnedBy(msgs, sid) + [u, b]
  {
    OwnedByAppend(msgs, u, sid);
    OwnedByAppend(msgs + [u], b, sid);
    AppendPair(msgs, u, b);
    AppendPair(OwnedBy(msgs, sid), u, b);
  }

  /** Appending two elements one after the other appends the pair. */
  lemma AppendPair<T>(p: seq<T>, u: T, b: T)
    ensures (p + [u]) + [b] == p + [u, b]
  {
  }

  /** A failed request keeps whatever the steps before the failing one
      wrote: nothing when the session could not be opened, the opened
      session when the user's message failed, and that message as well when
      the echo failed. */
  lemma NoRollback(st: Store, input: ChatRequest, autoTitle: string,
                   sessionUuid: Id, userUuid: Id, replyUuid: Id,
                   sessionUp: bool, userUp: bool, replyUp: bool,
                   r: (Store, Result<ChatResponse, Fault>))
    requires r == HandleChatRequest(st, input, autoTitle, sessionUuid, userUuid, replyUuid, sessionUp, userUp, replyUp)
    ensures r.1.Failure? && r.1.error.step == OpenSessionStep ==> r.0 == st
    ensures r.1.Failure? && r.1.error.step == UserMessageStep ==>
      && r.0.messages == st.messages
      && r.0.sessions.Keys == st.sessions.Keys + (if Given(input.session_id) then {} else {sessionUuid})
    ensures r.1.Failure? && r.1.error.step == ReplyStep ==>
      && |r.0.messages| == |st.messages| + 1
      && r.0.messages[..|st.messages|] == st.messages
      && r.0.messages[|st.messages|].role == User
      && r.0.messages[|st.messages|].content == input.message
      && r.0.sessions.Keys == st.sessions.Keys + (if Given(input.session_id) then {} else {sessionUuid})
  {
    var (st1, chosen) := OpenSession(st, input.session_id, autoTitle, sessionUuid, sessionUp);
    if chosen.Success? && r.1.Failure? && r.1.error.step == ReplyStep {
      assert r.0.messages[..|st.messages|] == st.messages;
    }
  }

  /** A request without a session whose echo fails: the session it opened
      and the user's message both stay. */
  lemma EchoFailureKeepsSession(st: Store, input: ChatRequest, autoTitle: string,
                                sessionUuid: Id, userUuid: Id, replyUuid: Id)
    requires !Given(input.session_id)
    requires sessionUuid !in st.sessions && |autoTitle| <= TitleLimit && Storable(autoTitle)
    requires Storable(input.message)
    requires userUuid !in MessageIds(st.messages)
    ensures var (st', res) := HandleChatRequest(st, input, autoTitle, sessionUuid, userUuid, replyUuid, true, true, false);
      && res == Failure(Fault(ReplyStep, Unavailable))
      && sessionUuid in st'.sessions
      && st'.messages == st.messages + [Message(userUuid, sessionUuid, User, input.message, st.clock)]
  {
  }
}

=== FILE: ranking.dfy ===
/** Recency ranking of sessions (`ORDER BY updated_at DESC LIMIT n`) and
    the latest message of a session (sort by `created_at` descending, take the
    first). Equal timestamps may be ordered either way: the datastore promises
    no tie-break, so neither does the contract here. */
module Ranking {
  import opened Results
  import opened ChatTypes

  function Min(a: nat, b: nat): nat {
    if a <= b then a else b
  }

  /** `ids` names distinct sessions of `sessions`, most recently updated first. */
  ghost predicate RankedByRecency(sessions: map<Id, Session>, ids: seq<Id>) {
    && (forall i | 0 <= i < |ids| :: ids[i] in sessions)
    && (forall i, j | 0 <= i < j < |ids| :: ids[i] != ids[j])
    && (forall i, j | 0 <= i < j < |ids| :: sessions[ids[j]].updated_at <= sessions[ids[i]].updated_at)
  }

  /** The session `id` was updated no later than any session `ids` names. */
  ghost predicate Outranked(sessions: map<Id, Session>, ids: seq<Id>, id: Id)
    requires id in sessions
    requires forall i | 0 <= i < |ids| :: ids[i] in sessions
  {
    forall i | 0 <= i < |ids| :: sessions[id].updated_at <= sessions[ids[i]].updated_at
  }

  /** `id` was updated no earlier than any session in `pool`. */
  predicate MostRecentIn(sessions: map<Id, Session>, pool: set<Id>, id: Id)
    requires pool <= sessions.Keys
  {
    id in pool && forall o | o in pool :: sessions[o].updated_at <= sessions[id].updated_at
  }

  /** Every non-empty set of sessions has a most recently updated member. */
  lemma {:induction false} MostRecentExists(sessions: map<Id, Session>, pool: set<Id>)
    requires pool != {} && pool <= sessions.Keys
    ensures exists id :: MostRecentIn(sessions, pool, id)
    decreases pool
  {
    var x :| x in pool;
    if pool != {x} {
      var rest := pool - {x};
      MostRecentExists(sessions, rest);
      var y :| MostRecentIn(sessions, rest, y);
      if sessions[x].updated_at <= sessions[y].updated_at {
        assert MostRecentIn(sessions, pool, y);
      } else {
        assert MostRecentIn(sessions, pool, x);
      }
    } else {
      assert MostRecentIn(sessions, pool, x);
    }
  }

  /** The `limit` most recently updated sessions, newest first: as many as
      `limit` allows, and no session left out was updated later than one
      that was taken. */
  method SelectRecent(sessions: map<Id, Session>, limit: nat) returns (ids: seq<Id>)
    ensures |ids| == Min(limit, |sessions|)
    ensures RankedByRecency(sessions, ids)
    ensures forall id | id in sessions && id !in ids :: Outranked(sessions, ids, id)
  {
    ids := [];
    var pool := sessions.Keys;
    while |ids| < limit && pool != {}
      invariant pool <= sessions.Keys
      invariant forall id | id in sessions :: id in pool <==> id !in ids
      invariant |ids| + |pool| == |sessions|
      invariant |ids| <= limit
      invariant RankedByRecency(sessions, ids)
      invariant forall id | id in pool :: Outranked(sessions, ids, id)
      decreases pool
    {
      MostRecentExists(sessions, pool);
      var id :| MostRecentIn(sessions, pool, id);
      RankStep(sessions, ids, pool, id);
      ids := ids + [id];
      pool := pool - {id};
    }
    assert pool == {} ==> |ids| == |sessions|;
  }

  /** Taking the most recent session of the pool extends the ranking and
      keeps every session still in the pool outranked. */
  lemma RankStep(sessions: map<Id, Session>, ids: seq<Id>, pool: set<Id>, id: Id)
    requires pool <= sessions.Keys
    requires forall x | x in sessions :: x in pool <==> x !in ids
    requires RankedByRecency(sessions, ids)
    requires forall x | x in pool :: Outranked(sessions, ids, x)
    requires MostRecentIn(sessions, pool, id)
    ensures RankedByRecency(sessions, ids + [id])
    ensures forall x | x in sessions :: x in pool - {id} <==> x !in ids + [id]
    ensures forall x | x in pool - {id} :: Outranked(sessions, ids + [id], x)
  {
    var next := ids + [id];
    forall i, j | 0 <= i < j < |next|
      ensures next[i] != next[j] && sessions[next[j]].updated_at <= sessions[next[i]].updated_at
    {
      if j == |ids| {
        assert Outranked(sessions, ids, id);
      }
    }
  }

  /** The message with the greatest creation time; absent only when there
      are no messages. Among equal times the earliest listed wins, as a
      stable descending sort would have it. */
  function Latest(msgs: seq<Message>): (r: Option<Message>)
    ensures r.None? <==> |msgs| == 0
    ensures r.Some? ==> r.value in msgs
    ensures r.Some? ==> forall m | m in msgs :: m.created_at <= r.value.created_at
  {
    if |msgs| == 0 then None
    else
      var p := msgs[..|msgs| - 1];
      var x := msgs[|msgs| - 1];
      assert msgs == p + [x];
      var best := Latest(p);
      if best.Some? && x.created_at <= best.value.created_at then best else Some(x)
  }

  /** A subset as large as its superset is the superset. */
  lemma SubsetOfSameSize(a: set<Id>, b: set<Id>)
    requires a <= b && |a| == |b|
    ensures a == b
  {
    assert b == a + (b - a);
    assert |b - a| == 0;
  }

  /** A ranking of every session names each of them. */
  lemma RankingCoversAll(sessions: map<Id, Session>, ids: seq<Id>)
    requires RankedByRecency(sessions, ids) && |ids| == |sessions|
    ensures forall id | id in sessions :: id in ids
  {
    DistinctCardinality(ids);
    var listed := set i | 0 <= i < |ids| :: ids[i];
    assert |sessions.Keys| == |sessions|;
    SubsetOfSameSize(listed, sessions.Keys);
    forall id | id in sessions ensures id in ids {
      assert id in listed;
    }
  }

  /** Distinct identifiers make a set of the same size. */
  lemma {:induction false} DistinctCardinality(ids: seq<Id>)
    requires forall i, j | 0 <= i < j < |ids| :: ids[i] != ids[j]
    ensures |set i | 0 <= i < |ids| :: ids[i]| == |ids|
  {
    if |ids| > 0 {
      var p := ids[..|ids| - 1];
      DistinctCardinality(p);
      var sp := set i | 0 <= i < |p| :: p[i];
      var s := set i | 0 <= i < |ids| :: ids[i];
      assert s == sp + {ids[|ids| - 1]};
      assert ids[|ids| - 1] !in sp;
    }
  }
}

=== FILE: results.dfy ===
/** Optional values and success/failure outcomes, standing in for the
    TypeScript `T | null` returns and thrown errors of the chat store. */
module Results {

  /** A value that may be absent (`null`/`undefined` in the TypeScript code). */
  datatype Option<+T> = None | Some(value: T) {

    /** The wrapped value, or `fallback` when absent (JavaScript's `x ?? fallback`). */
    function GetOr(fallback: T): T {
      match this
      case Some(v) => v
      case None => fallback
    }
  }

  /** The outcome of one datastore round trip or one guarded computation. */
  datatype Result<+R, +E> = Success(value: R) | Failure(error: E) {

    /** Forgets the error, as the service layer does when it answers `null`. */
    function ToOption(): Option<R> {
      match this
      case Success(v) => Some(v)
      case Failure(_) => None
    }
  }

  /** A pass/fail decision of a guard; a failure carries the error text it throws. */
  datatype Verdict = Pass | Reject(reason: string)
}

=== FILE: text.dfy ===
/** The few string operations the chat code relies on: JavaScript's
    `String.prototype.trim` and the decimal rendering of a whole number in a
    template literal. */
module Text {
  import opened Results

  /** An optional string that JavaScript deems truthy: present and not empty. */
  predicate Given(s: Option<string>) {
    s.Some? && s.value != ""
  }

  /** The characters `trim` removes: ECMAScript WhiteSpace and LineTerminator. */
  predicate IsSpace(c: char) {
    || c == '\t' || c == '\n' || c == '\U{000B}' || c == '\U{000C}' || c == '\r'
    || c == ' ' || c == '\U{00A0}' || c == '\U{1680}'
    || ('\U{2000}' <= c <= '\U{200A}')
    || c == '\U{2028}' || c == '\U{2029}' || c == '\U{202F}' || c == '\U{205F}'
    || c == '\U{3000}' || c == '\U{FEFF}'
  }

  /** Every character of `s` is whitespace (the empty string included). */
  predicate IsBlank(s: string) {
    forall k | 0 <= k < |s| :: IsSpace(s[k])
  }

  /** Length of the whitespace run at the front of `s`. */
  function Lead(s: string): (i: nat)
    ensures i <= |s|
    ensures IsBlank(s[..i])
    ensures i < |s| ==> !IsSpace(s[i])
  {
    if |s| > 0 && IsSpace(s[0]) then
      var i := 1 + Lead(s[1..]);
      assert s[..i] == [s[0]] + s[1..][..i - 1];
      i
    else 0
  }

  /** Length of `s` once its trailing whitespace run is dropped. */
  function Trail(s: string): (j: nat)
    ensures j <= |s|
    ensures IsBlank(s[j..])
    ensures j > 0 ==> !IsSpace(s[j - 1])
  {
    if |s| > 0 && IsSpace(s[|s| - 1]) then
      var j := Trail(s[..|s| - 1]);
      assert s[j..] == s[..|s| - 1][j..] + [s[|s| - 1]];
      j
    else |s|
  }

  /** `s.trim()`: `s` with leading and trailing whitespace removed. The result
      sits inside `s` between two whitespace-only pieces and, when not empty,
      neither starts nor ends with whitespace. */
  function Trim(s: string): (r: string)
    ensures Lead(s) + |r| <= |s|
    ensures s == s[..Lead(s)] + r + s[Lead(s) + |r|..]
    ensures IsBlank(s[Lead(s) + |r|..])
    ensures r == [] <==> IsBlank(s)
    ensures r != [] ==> !IsSpace(r[0]) && !IsSpace(r[|r| - 1])
  {
    var i := Lead(s);
    var j := Trail(s[i..]);
    TrimPieces(s, i, j);
    s[i..i + j]
  }

  /** The facts behind `Trim`, for the leading run `i` and the length `j` of
      what is left once the trailing run goes. */
  lemma TrimPieces(s: string, i: nat, j: nat)
    requires i == Lead(s) && j == Trail(s[i..])
    ensures i + j <= |s|
    ensures s == s[..i] + s[i..i + j] + s[i + j..]
    ensures IsBlank(s[i + j..])
    ensures s[i..i + j] == [] <==> IsBlank(s)
    ensures j > 0 ==> !IsSpace(s[i]) && !IsSpace(s[i + j - 1])
  {
    TrimOuter(s, i, j);
    TrimEnds(s, i, j);
    SplitThree(s, i, i + j);
    BlankPieces(s[..i], s[i..i + j], s[i + j..]);
    if j > 0 {
      assert s[i..i + j][0] == s[i];
    }
  }

  /** What `Trim` drops at the back is whitespace. */
  lemma TrimOuter(s: string, i: nat, j: nat)
    requires i == Lead(s) && j == Trail(s[i..])
    ensures i + j <= |s|
    ensures IsBlank(s[i + j..])
  {
    assert s[i + j..] == s[i..][j..];
  }

  /** What `Trim` keeps starts and ends with a non-space. */
  lemma TrimEnds(s: string, i: nat, j: nat)
    requires i == Lead(s) && j == Trail(s[i..])
    ensures j > 0 ==> !IsSpace(s[i]) && !IsSpace(s[i + j - 1])
  {
    if j > 0 {
      assert s[i + j - 1] == s[i..][j - 1];
    }
  }

  /** A string is its three pieces around two cut points, put back together. */
  lemma SplitThree(s: string, a: nat, b: nat)
    requires a <= b <= |s|
    ensures s == s[..a] + s[a..b] + s[b..]
  {
    assert s[..a] + s[a..b] == s[..b];
    assert s[..b] + s[b..] == s;
  }

  /** A string cut into three pieces is blank exactly when the middle piece
      is, given that the outer pieces are blank. */
  lemma BlankPieces(a: string, b: string, c: string)
    requires IsBlank(a) && IsBlank(c)
    ensures IsBlank(a + b + c) <==> IsBlank(b)
  {
    var s := a + b + c;
    if IsBlank(b) {
      forall k | 0 <= k < |s| ensures IsSpace(s[k]) {
        if k < |a| {
          assert s[k] == a[k];
        } else if k < |a| + |b| {
          assert s[k] == b[k - |a|];
        } else {
          assert s[k] == c[k - |a| - |b|];
        }
      }
    }
    if IsBlank(s) {
      forall k | 0 <= k < |b| ensures IsSpace(b[k]) {
        assert b[k] == s[|a| + k];
      }
    }
  }

  /** Trimming twice is trimming once. */
  lemma {:induction false} TrimIdempotent(s: string)
    ensures Trim(Trim(s)) == Trim(s)
  {
    var r := Trim(s);
    if r == [] {
      assert IsBlank(r);
    } else {
      assert Lead(r) == 0;
      assert Trail(r) == |r|;
      assert r[0..] == r;
      assert r[..|r|] == r;
    }
  }

  /** Decimal digit `d` as a character. */
  function Digit(d: nat): char
    requires d < 10
  {
    "0123456789"[d]
  }

  /** Numeric value of a decimal digit character. */
  function DigitValue(c: char): nat
    requires '0' <= c <= '9'
  {
    (c as int) - ('0' as int)
  }

  /** A non-empty string of decimal digits. */
  predicate IsNumeral(s: string) {
    |s| > 0 && forall k | 0 <= k < |s| :: '0' <= s[k] <= '9'
  }

  /** `${n}` for a whole number `n`: its decimal numeral, without leading zeros. */
  function Show(n: nat): (r: string)
    ensures IsNumeral(r)
    ensures n > 0 ==> r[0] != '0'
    decreases n
  {
    if n < 10 then [Digit(n)] else Show(n / 10) + [Digit(n % 10)]
  }

  /** The value a decimal numeral denotes (the reading direction of `Show`). */
  function Value(s: string): nat
    requires IsNumeral(s) || s == []
  {
    if s == [] then 0
    else Value(s[..|s| - 1]) * 10 + DigitValue(s[|s| - 1])
  }

  /** Reading back a shown number gives the number. */
  lemma {:induction false} ValueOfShow(n: nat)
    ensures Value(Show(n)) == n
    decreases n
  {
    DigitRoundTrip(n % 10);
    if n < 10 {
      ValueSnoc([], Digit(n));
    } else {
      ValueOfShow(n / 10);
      ValueSnoc(Show(n / 10), Digit(n % 10));
    }
  }

  /** A digit appended to a numeral adds one decimal place. */
  lemma ValueSnoc(p: string, c: char)
    requires IsNumeral(p) || p == []
    requires '0' <= c <= '9'
    ensures IsNumeral(p + [c])
    ensures Value(p + [c]) == Value(p) * 10 + DigitValue(c)
  {
    assert (p + [c])[..|p|] == p;
  }

  /** Reading a digit back gives its value. */
  lemma DigitRoundTrip(d: nat)
    requires d < 10
    ensures '0' <= Digit(d) <= '9' && DigitValue(Digit(d)) == d
  {
  }

  /** Different numbers are shown differently. */
  lemma ShowInjective(a: nat, b: nat)
    ensures Show(a) == Show(b) <==> a == b
  {
    ValueOfShow(a);
    ValueOfShow(b);
  }
}
